=== FILE: README.md ===
# file-manager in Dafny

A model of the two batch tools of `file-manager`. Both tools are Windows-only.

- **Renamer** (`FileRenamer` with `PictureRenamer`). It walks one directory and skips every
  file whose lower-cased extension is not a media extension. Each remaining file gets a new
  name: the oldest of its creation time, its EXIF capture time and its modification time,
  formatted as `YYYYMMDD_HHMMSS`. On a name collision the renamer counts up:
  `name.jpg`, `name_1.jpg`, `name_2.jpg`, …
- **Sorter** (`FileSorter` with `PictureSorter`). It moves every media file of an input
  directory into `base\<first four characters of the name>\`. On a collision it counts up
  the same way. When the sort directory is missing, it creates it.

The modules follow the program's structure:

| module | file | models |
|---|---|---|
| `Strings` | strings.dfy | Python string order, `strip`, `replace` of one character, ASCII `lower` |
| `Decimal` | decimal.dfy | decimal digit strings, `str(n)` for a counter, and the value of a digit string |
| `Paths` | paths.dfy | `os.path.splitext` and `os.path.join` (the Windows `ntpath` flavour), `'\\'.join` |
| `FileSystem` | filesystem.dfy | the disk as sets of paths, `os.rename` with its three error kinds, `os.mkdir` |
| `DateName` | date_name.dfy | `DateName`: the candidate dates and their minimum; string order of stamps is chronological order |
| `Reports` | reports.dfy | the outcome lists a run accumulates |
| `Pictures` | pictures.dfy | `rename_file` and `move_file` with their collision loops |
| `Batch` | batch.dfy | both `process_files` loops over a directory listing |

Some things are parameters rather than computed:

- The clock and time zone. `datetime.fromtimestamp(t).strftime(fmt)` is a `Formatter` parameter.
- The system's answers about a file: `getctime`, `getmtime` and the EXIF tag. These form a
  `FileDates` value, and a batch run takes them as a function of the path.
- The directory listing. It is a `seq<string>` parameter.

The disk is an `Fs` value: the files, the directories, and the files the system refuses to
move (`locked`). `FileSystem.Rename` returns the new `Fs` or one of three errors:

- `AlreadyExists`: the message contains 'file already exists'. Windows reports this for an existing directory as well as for an existing file, so a target is free only when no file and no directory has its path (`Occupied`).
- `PathNotFound`: the message contains 'cannot find the path'.
- `OtherError`: any other message.

The renamer catches every `WindowsError` and retries with the next counter. It records a
failure only for a `TypeError`. The model follows this code. A file that cannot be moved
therefore leaves the renamer's loop only when one of its candidate names is its own name, and
a derived name holding a character Windows refuses in a file name keeps it in the loop forever.
The renamer's model requires an accepted file to exist, its derived name to be a plain file
name, and the file to be movable unless it already carries one of its candidate names. Two
further ways a run can fail to finish are not modelled: a file that cannot be opened for
reading, and a name longer than Windows allows (see "Left out").

## Model

| member | source | states |
|---|---|---|
| Strings.LessIrreflexive | src/utils.py:55 | No string is smaller than itself in the order `min` uses |
| Strings.LessAsymmetric | src/utils.py:55 | If `a < b` then not `b < a` |
| Strings.LessTransitive | src/utils.py:55 | The string order is transitive |
| Strings.LessTotal | src/utils.py:55 | Any two different strings are ordered one way or the other, so `min` is well defined |
| Strings.LessSplit | src/utils.py:55 | Comparing two strings equals comparing their first `k` characters, then the rest when those are equal |
| Strings.Strip | src/utils.py:95 | `strip()` returns a contiguous slice of its input; everything cut off is whitespace, and the result neither starts nor ends with whitespace |
| Strings.StripUnpadded | src/utils.py:95 | A string that neither starts nor ends with whitespace is unchanged by `strip()` |
| Strings.RemoveChar | src/utils.py:95 | `replace(':', '')` leaves no `:`, introduces no character and never lengthens the text |
| Strings.RemoveCharCounts | src/utils.py:95 | Deleting `:` removes every occurrence of it and keeps every other character exactly as often as it occurred |
| Strings.RemoveCharAppend | src/utils.py:95 | Deleting a character distributes over concatenation |
| Strings.ReplaceChar | src/utils.py:95 | `replace(' ', '_')` changes exactly the spaces and keeps every other character in place |
| Strings.Lower | src/utils.py:187 | `lower()` keeps the length and lower-cases each ASCII letter in place |
| Decimal.NatToString | src/pictures.py:44 | `str(n)` for a counter is a non-empty digit string without a leading zero |
| Decimal.NumNatToString | src/pictures.py:43-45 | Reading the digits of `str(n)` gives back `n` |
| Decimal.NatToStringNum | src/pictures.py:44 | `str` prints exactly the canonical digit strings: a non-empty digit string without a leading zero (or `0`) is what `str` prints for its value |
| Decimal.NatToStringInjective | src/pictures.py:43-45 | Different counters give different suffixes |
| Decimal.LessIsNumericLess | src/utils.py:55 | For digit strings of equal length, string order is numeric order |
| Decimal.NumInjective | src/utils.py:55 | Equal-length digit strings with the same value are equal |
| Paths.SplitExt | src/utils.py:23-26 | `splitext` splits the name into root and extension whose concatenation is the name. The extension is non-empty exactly when the base name has a dot that some other character precedes. A non-empty extension is one dot followed by dot-free, separator-free text |
| Paths.SplitExtAppend | src/utils.py:23-26 | Appending an extension to a stem that ends in neither a dot nor a separator makes `splitext` return exactly that stem and extension |
| Paths.SplitExtExamples | src/utils.py:23-26 | `IMG_0001.JPG` splits into `IMG_0001` and `.JPG`; `archive.tar.gz` splits at the last dot |
| Paths.SplitExtLeadingDotsExample | src/utils.py:23-26 | `.hidden` and `..jpg` have no extension |
| Paths.JoinInjective | src/utils.py:185 | Within one directory, distinct names give distinct full paths |
| Paths.BackslashJoinInjective | src/pictures.py:62-63 | Under one directory, distinct names give distinct paths |
| FileSystem.RenameKeepsFileCount | src/pictures.py:69 | A successful rename keeps the number of files |
| FileSystem.RenameOntoDirectoryRefused | src/pictures.py:40-46 | A rename onto an existing directory fails with 'already exists', as onto an existing file |
| FileSystem.RenameUndo | src/pictures.py:69 | On a disk where no path is both a file and a directory, a successful rename is undone exactly by renaming the file back into the directory it came from |
| FileSystem.MkdirClearsPathNotFound | src/pictures.py:79-82 | Once the sort directory has been created, the retried rename can no longer fail with 'cannot find the path' |
| DateName.NormaliseTaken | src/utils.py:95 | The normalised capture time contains no `:` and no space, and is no longer than the tag |
| DateName.MinFrom | src/utils.py:55 | Python's `min` over the present values: absent only when all are absent; otherwise one of them, and no larger than any of them |
| DateName.DetermineName | src/utils.py:47-95 | No new name exactly when both file times are zero and the tag is absent. Otherwise the name is one of the present candidates (the formatted creation time when it is non-zero, the normalised capture time when tagged, the formatted modification time when it is non-zero) and is no larger, in string order, than any of them |
| DateName.StampOrderIsChronological | src/pictures.py:17 | For two `%Y%m%d_%H%M%S` stamps, string order coincides with order on (year, month, day, hour, minute, second) |
| DateName.DetermineNameIsOldest | src/utils.py:29-33 | When every present candidate is a stamp, the chosen name is a stamp and no candidate denotes an earlier moment |
| DateName.NormaliseExifDateTime | src/utils.py:95 | Well-formed EXIF text `YYYY:MM:DD HH:MM:SS` normalises to the stamp `YYYYMMDD_HHMMSS` with the same digits |
| DateName.NormaliseTakenExample | src/utils.py:95 | `2021:05:01 10:00:00` becomes `20210501_100000` |
| Reports.RecordRename | src/utils.py:186-196 | Recording an outcome appends exactly one entry, to the end of the list that matches the outcome's kind, and leaves the other lists alone. The entry is the rename text, the file's path, the no-name message or the path |
| Reports.TallyRenamesTotal | src/utils.py:116-120 | After a run the four lists together hold one entry per processed file |
| Reports.TallyRenamesWrongExtension | src/utils.py:187-189 | A path is in the skipped-extension list exactly when its outcome was a wrong extension |
| Reports.TallyRenamesSameName | src/pictures.py:34-37 | A path is in the same-name list exactly when its outcome was that the file already carried its new name |
| Reports.TallyRenamesRenamed | src/pictures.py:52 | Every rename of a run appears, as its rename text, in the renamed list |
| Reports.TallyRenamesNoNewName | src/utils.py:193-196 | The failure list holds a file's message exactly when no new name was found for it |
| Reports.RecordMove | src/pictures.py:84-88 | Recording a move outcome appends exactly one entry, to the end of the list that matches its kind, and leaves the other lists alone. The entry is the move text or the bare name |
| Reports.TallyMovesTotal | src/utils.py:220-223 | After a run the three lists together hold one entry per processed file |
| Reports.TallyMovesSkipped | src/utils.py:258-260 | A name is in the skipped list exactly when its outcome was a skip |
| Reports.TallyMovesFailed | src/pictures.py:83-86 | A name is in the failed list exactly when its move failed |
| Pictures.Candidate | src/pictures.py:30-45 | The `n`-th name tried starts with the new name, ends with the extension, and is longer than the plain name exactly when `n > 0` |
| Pictures.OwnCounter | src/pictures.py:35-45 | When `OwnCounter` names a counter, that counter's candidate is the file's own path |
| Pictures.OwnCounterComplete | src/pictures.py:35-45 | Every counter whose candidate is the file's own path is the one `OwnCounter` names, so `None` means no candidate is the file |
| Pictures.OwnCounterExample | src/pictures.py:43-45 | `x_12.jpg` is counter 12 of `x`; `x_0.jpg` and `x_012.jpg` are never tried |
| Pictures.CandidateInjective | src/pictures.py:43-45 | Different counters give different names, so no name is tried twice |
| Pictures.CandidateKeepsExtension | src/pictures.py:73-76 | `splitext` of a numbered name gives back the extension it was built with, and the root with the `_n` suffix |
| Pictures.RenameFile | src/pictures.py:29-54 | For a movable file the loop stops at the first counter whose candidate is free or is the file's own path, every earlier candidate being taken by another file; it then skips the file with the disk unchanged, or moves exactly that one file. A file that cannot be moved (locked, missing, or its directory gone) is skipped at the counter whose candidate is its own path, as `OwnCounter` finds it |
| Pictures.RerunStopsAtOwnName | src/pictures.py:35-37 | On the disk the file's own rename left, a repeat search for the renamed file stops at the same counter, on the file's own name |
| Pictures.SecondRunCanRenameAgain | src/pictures.py:34-46 | That stability does not extend to a whole batch: when `a.jpg` and `X.jpg` both derive `X`, `a.jpg` stops at counter 1 as `X_1.jpg`; once `X.jpg` has moved on, a second run stops at the free counter 0 and renames `X_1.jpg` again |
| Pictures.StopsAtUnique | src/pictures.py:34-46 | The counter at which the search stops is unique |
| Pictures.SortKeyExample | src/pictures.py:61 | `20230115_103000.jpg` sorts under `2023` |
| Pictures.TriedTargetsNext | src/pictures.py:73-77 | The next destination has not been tried before |
| Pictures.MoveInto | src/pictures.py:65-86 | The move fails exactly when the source is missing or locked. Otherwise the file lands at the first free numbered name in the sort directory, every earlier name being taken by a file or a directory, and the directory exists afterwards |
| Pictures.MoveFile | src/pictures.py:60-90 | `move_file` fails exactly for a missing or locked source and then leaves the disk unchanged. Otherwise it moves the file from `input\name` to the first free destination in `base\key\`, creating that directory if needed |
| Batch.MediaExtensionsIgnoreCase | src/utils.py:187 | `.JPG` and `.Mov` are accepted like `.jpg` and `.mov` |
| Batch.NoExtensionNotMedia | src/pictures.py:9 | A name without an extension is never a media file |
| Batch.MediaExtensionShape | src/pictures.py:9 | An accepted name has an extension of at least four characters |
| Batch.DestinationStaysMedia | src/pictures.py:73-77 | Every destination the sorter tries for a media file is still a media file name |
| Batch.RenameEntry | src/utils.py:180-201 | One loop pass, as `RenameStep` states. A file with a foreign extension is skipped, and an accepted file without a date is reported as such; neither touches the disk. For a dated movable file the collision search stops at the first candidate of the new name that is free or is the file's own path. The file is skipped exactly when that candidate is its own path; otherwise it is renamed to that candidate and nothing else changes. A dated file that cannot be moved is skipped at its own candidate. The pass is required to finish (`PassFinishes`) |
| Batch.MovesKeptStep | src/utils.py:180-201 | Moving a waiting file to a free name keeps the file set equal to the original minus the moved sources plus their destinations, keeps every earlier destination in place and keeps all destinations distinct |
| Batch.ProcessRenames | src/utils.py:175-201 | One outcome per listed name, in order, with the disk before each pass. Every pass is the `RenameStep` of its listed name on the disk the previous pass left. At the end the files are the original ones minus the renamed sources plus their new names, every renamed file is at its new name, no two files share one, and the number of files, the directories and the locks are unchanged |
| Batch.SortEntry | src/utils.py:253-262 | One loop pass, as `SortStep` states. A foreign extension is skipped, and a missing or locked accepted file fails; neither touches the disk. Otherwise the file moves from `input\name` to the first destination of its name that is free (every earlier one is taken), and the sort directory exists afterwards |
| Batch.ProcessSorts | src/utils.py:253-262 | One outcome per listed name, in order, with the disk before each pass. Every pass is the `SortStep` of its listed name on the disk the previous pass left. A file fails exactly when it is accepted and locked. At the end the files are the original ones minus the moved sources plus their destinations, all destinations are distinct, the number of files and the locks are unchanged, and only sort directories were added |

## Left out

- Listing a directory (`get_files`) and its interactive prompts are left out. The listing is a parameter; the model takes it as a list of distinct names, with every listed file whose extension is accepted present on the disk.
- Listed entries that are directories are left out: the listing is assumed to hold files.
- `print` and `print_report` only write to the console.
- `format_date_time` is left out because it depends on the clock and the local time zone. It is the `Formatter` parameter, and nothing is assumed about its output.
- `exifread.process_file` parses binary files. The tag text is part of `FileDates`.
- The `TypeError` branch of `rename_file` cannot be reached with string arguments.
- Pictures.RenameFile: requires the file to be movable or to carry one of its candidate names. Otherwise the program catches every `WindowsError` and retries forever, and a model of a loop cannot express that.
- Batch.ProcessRenames: requires every pass to finish (`PassFinishes`). `getctime` raises on a missing file; `rename_file` never returns for a locked file that does not already carry one of its candidate names, nor for a derived name holding a path separator or another character Windows refuses in a name (every rename then fails with 'cannot find the path' or an invalid-name error, and both are retried). Such a name can come from the EXIF capture-time text, which is read as is, or from the `Formatter`. The model also assumes every accepted file can be opened for reading: `get_date_taken` opens it and catches only `AttributeError`, so a file the user may not read (access denied) raises out of `process_files` and ends the run.
- FileSystem.Rename: puts no bound on the length of a path. With a name longer than Windows allows, every rename fails with an error that is neither 'already exists' nor 'cannot find the path'. The renamer then retries forever, with ever longer names; the sorter records the file as failed. The model renames or moves the file.
- FileSystem.Rename: does not model drives. Windows refuses to rename a file onto another drive (error 17). A sort from one drive into a base directory on another, such as a camera card `E:\` into `D:\`, therefore records every unlocked media file under `failed_to_move`, where the model moves it. Which check Windows makes first, the missing directory or the other drive, would decide whether the sort directory is created before the failure.
- FileSystem.Mkdir: always succeeds. A failing `os.mkdir`, for instance under a missing base directory, raises out of `move_file`; that crash is not modelled.
- FileSystem.Rename: the order of its error checks is fixed (source, then directory, then target). Windows does not document this order, but only this order matches the messages the program tests.
- FileSystem.Rename: a rename onto the source's own path is reported as `AlreadyExists`, like a rename onto any other existing file. The sorter reaches this only when the input directory is itself the sort directory of a file (`input_path == base_path\key`). Windows may instead treat such a rename as a successful no-op, which would record the file as moved onto itself; the model moves it to the first numbered name.
- Windows file names are case-insensitive; the model compares paths exactly.
- Strings.Lower: folds ASCII letters only. Python's `lower()` folds all of Unicode, and no media extension needs more.
- Paths.Join: covers a relative second argument and a bare drive `C:`. UNC prefixes and an absolute second argument are left out, because names from a listing and formatted dates are relative.
- The renamer's model takes the listed directory as the directory of every candidate. That is exact because `PassFinishes` requires the derived name to be a plain file name. Windows' quiet removal of trailing dots and spaces from a name is not modelled.

=== FILE: batch.dfy ===
/**
  `FileRenamer.process_files` and `FileSorter.process_files`: walk the directory listing once,
  skip every file whose extension is not accepted, and hand each remaining file to the
  picture renamer or the picture sorter.
*/
module Batch {
  import opened Wrappers
  import opened Strings
  import opened Paths
  import opened FileSystem
  import opened DateName
  import opened Reports
  import opened Pictures

  /** `ext.lower() in self.accepted_extensions`. */
  predicate Accepted(ext: string, accepted: seq<string>)
  {
    Lower(ext) in accepted
  }

  /** The check ignores case: an upper-case `.JPG` is a media file as much as `.jpg` is. */
  lemma MediaExtensionsIgnoreCase()
    ensures Accepted(".JPG", MediaExtensions) && Accepted(".Mov", MediaExtensions)
  {
    assert Lower(".JPG") == ".jpg";
    assert Lower(".Mov") == ".mov";
  }

  /** A name without an extension, such as `README` or `.hidden`, is never a media file. */
  lemma NoExtensionNotMedia(name: string)
    requires !HasExtension(name)
    ensures !Accepted(Ext(name), MediaExtensions)
  {
    assert Ext(name) == "";
    assert Lower("") == "";
  }

  /** Every accepted media extension is a dot followed by a non-empty suffix. */
  lemma MediaExtensionShape(name: string)
    requires Accepted(Ext(name), MediaExtensions)
    ensures HasExtension(name) && |Ext(name)| >= 4
  {
    var e := Lower(Ext(name));
    assert |e| == |Ext(name)|;
    assert |e| >= 4 by {
      assert forall x | x in MediaExtensions :: |x| >= 4;
    }
  }

  /**
    Every destination the sorter tries for a media file is itself a media file name: the
    numbered copies keep the extension, so a later run still accepts them.
  */
  lemma DestinationStaysMedia(name: string, n: nat, accepted: seq<string>)
    requires Accepted(Ext(name), accepted) && Lower("") !in accepted
    ensures Accepted(Ext(Candidate(Root(name), Ext(name), n)), accepted)
  {
    if n == 0 {
      assert Candidate(Root(name), Ext(name), 0) == name;
    } else {
      assert Ext(name) != "";
      CandidateKeepsExtension(Root(name), Ext(name), n);
    }
  }

  // ---------------------------------------------------------------------------
  // FileRenamer.process_files
  // ---------------------------------------------------------------------------

  /** The name the renamer asks for: `os.path.join(path, new_name)` when a date is found. */
  function NewName(path: string, entry: string, datesOf: string -> FileDates, format: Formatter): (r: Option<string>)
    ensures r.None? <==> DetermineName(datesOf(Join(path, entry)), format).None?
    ensures r.Some? ==> r.value == Join(path, DetermineName(datesOf(Join(path, entry)), format).value)
  {
    match DetermineName(datesOf(Join(path, entry)), format)
    case None => None
    case Some(date) => Some(Join(path, date))
  }

  /**
    What one pass of the `process_files` loop body does with the listed name `entry` of
    directory `path`, taking the disk from `fs` to `fs'`; `n` is the counter the collision
    search stopped at. A file with another extension, or one no date can be found for, is
    reported and left alone. Otherwise, for a file that can be moved, the search stops at the
    first candidate that is free or is the file itself: in the second case the file already
    carries its name, in the first it is renamed to that candidate. A file that cannot be moved
    is skipped at the first candidate that is its own name.
  */
  ghost predicate RenameStep(fs: Fs, fs': Fs, path: string, entry: string, accepted: seq<string>,
                             datesOf: string -> FileDates, format: Formatter, o: RenameOutcome, n: nat)
  {
    var file, ext, newName := Join(path, entry), Ext(entry), NewName(path, entry, datesOf, format);
    && o.Source() == file
    && (o.WrongExtension? <==> !Accepted(ext, accepted))
    && (o.NoNewName? <==> Accepted(ext, accepted) && newName.None?)
    && (Accepted(ext, accepted) && newName.Some? ==>
          && (Movable(fs, path, file) ==> StopsAt(Occupied(fs), file, newName.value, ext, n))
          && (!Movable(fs, path, file) ==> o.SameName? && OwnCounter(file, newName.value, ext) == Some(n))
          && (o.SameName? <==> Candidate(newName.value, ext, n) == file)
          && (o.Renamed? ==>
                o.to == Candidate(newName.value, ext, n) && fs'.files == fs.files - {file} + {o.to}))
    && (!o.Renamed? ==> fs' == fs)
    && fs'.dirs == fs.dirs && fs'.locked == fs.locked
  }

  /** A pass that renames moves an accepted file to a name that was free; any other pass leaves the disk alone. */
  lemma RenameStepMoves(fs: Fs, fs': Fs, path: string, entry: string, accepted: seq<string>,
                        datesOf: string -> FileDates, format: Formatter, o: RenameOutcome, n: nat)
    requires RenameStep(fs, fs', path, entry, accepted, datesOf, format, o, n)
    ensures o.Renamed? ==>
      && Accepted(Ext(entry), accepted) && o.from == Join(path, entry)
      && o.to != o.from && o.to !in fs.files && fs'.files == fs.files - {o.from} + {o.to}
    ensures !o.Renamed? ==> fs' == fs
    ensures fs'.dirs == fs.dirs && fs'.locked == fs.locked
  {
    if o.Renamed? {
      var newName := NewName(path, entry, datesOf, format).value;
      assert Candidate(newName, Ext(entry), n) != Join(path, entry);
    }
  }

  /**
    What `process_files` needs of the listed name `entry` to finish its pass. An accepted file
    exists, since its dates are read from it. A derived name is a plain file name and, unless
    the file already carries one of its candidate names, the file is not locked:
    `rename_file` retries every other `WindowsError` forever.
  */
  predicate PassFinishes(fs: Fs, path: string, entry: string, accepted: seq<string>,
                         datesOf: string -> FileDates, format: Formatter)
  {
    var file := Join(path, entry);
    var date := DetermineName(datesOf(file), format);
    Accepted(Ext(entry), accepted) ==>
      && file in fs.files
      && (date.Some? ==> IsPlainName(date.value))
      && (date.Some? && OwnCounter(file, Join(path, date.value), Ext(entry)).None? ==> file !in fs.locked)
  }

  /** One pass of the `process_files` loop body for the listed name `entry` of directory `path`. */
  method RenameEntry(fs: Fs, path: string, entry: string, accepted: seq<string>,
                     datesOf: string -> FileDates, format: Formatter)
    returns (outcome: RenameOutcome, fs': Fs, n: nat)
    requires path in fs.dirs
    requires PassFinishes(fs, path, entry, accepted, datesOf, format)
    ensures RenameStep(fs, fs', path, entry, accepted, datesOf, format, outcome, n)
  {
    var ext := Ext(entry);
    var file := Join(path, entry);
    if !Accepted(ext, accepted) {
      return WrongExtension(file), fs, 0;
    }
    var newName := NewName(path, entry, datesOf, format);
    if newName.None? {
      return NoNewName(file), fs, 0;
    }
    outcome, fs', n := RenameFile(fs, path, file, newName.value, ext);
  }

  /** Every listed name is listed once. */
  predicate Distinct(entries: seq<string>)
  {
    forall i, j :: 0 <= i < j < |entries| ==> entries[i] != entries[j]
  }

  // ---------------------------------------------------------------------------
  // Moves that never collide
  // ---------------------------------------------------------------------------

  /** What the batch did with one listed file: moved it `(from, to)`, or left it where it was. */
  type Move = Option<(string, string)>

  /** The paths the moves took files away from. */
  ghost function Sources(ms: seq<Move>): set<string>
  {
    set k | 0 <= k < |ms| && ms[k].Some? :: ms[k].value.0
  }

  /** The paths the moves put files at. */
  ghost function Dests(ms: seq<Move>): set<string>
  {
    set k | 0 <= k < |ms| && ms[k].Some? :: ms[k].value.1
  }

  lemma MovesAppend(ms: seq<Move>, m: Move)
    ensures Sources(ms + [m]) == Sources(ms) + (if m.Some? then {m.value.0} else {})
    ensures Dests(ms + [m]) == Dests(ms) + (if m.Some? then {m.value.1} else {})
  {
    var ms' := ms + [m];
    assert forall k :: 0 <= k < |ms| ==> ms'[k] == ms[k];
    assert ms'[|ms|] == m;
  }

  /**
    The bookkeeping both batch loops keep, starting from the files `files0`: `ms[k]` is what was
    done with the `k`-th listed file, and `pending` holds the paths of the files still waiting.
    The files are the original ones with the moved sources taken out and the destinations put
    in, as many as before; the waiting files are all there; every destination is still a file
    and not a waiting path, and no two moves share a destination.
  */
  ghost predicate MovesKept(files0: set<string>, files: set<string>, ms: seq<Move>, pending: set<string>)
  {
    && files == files0 - Sources(ms) + Dests(ms)
    && |files| == |files0|
    && pending <= files
    && (forall k :: 0 <= k < |ms| && ms[k].Some? ==> ms[k].value.1 in files && ms[k].value.1 !in pending)
    && (forall k, l :: 0 <= k < l < |ms| && ms[k].Some? && ms[l].Some? ==> ms[k].value.1 != ms[l].value.1)
  }

  /** Before the first file is handled nothing has moved. */
  lemma MovesKeptStart(files0: set<string>, pending: set<string>)
    requires pending <= files0
    ensures MovesKept(files0, files0, [], pending)
  {
    assert Sources([]) == {} && Dests([]) == {};
  }

  /**
    Handling one more file keeps `MovesKept`: a move takes a waiting file to a name that is not
    a file yet, and the file stops waiting. The moved file cannot be an earlier destination,
    because destinations never wait.
  */
  lemma MovesKeptStep(files0: set<string>, files: set<string>, files': set<string>, ms: seq<Move>,
                      pending: set<string>, pending': set<string>, src: string, m: Move)
    requires MovesKept(files0, files, ms, pending)
    requires pending' <= pending && src !in pending'
    requires m.Some? ==> m.value.0 == src && src in pending && m.value.1 !in files && files' == files - {src} + {m.value.1}
    requires m.None? ==> files' == files
    ensures MovesKept(files0, files', ms + [m], pending')
  {
    var ms' := ms + [m];
    assert m.Some? ==> src !in Dests(ms);
    MovesFrameStep(files0, files, files', ms, src, m);
    forall k | 0 <= k < |ms'| && ms'[k].Some?
      ensures ms'[k].value.1 in files' && ms'[k].value.1 !in pending'
    {
      if k < |ms| {
        assert ms'[k] == ms[k];
      }
    }
    forall k, l | 0 <= k < l < |ms'| && ms'[k].Some? && ms'[l].Some?
      ensures ms'[k].value.1 != ms'[l].value.1
    {
      assert ms'[k] == ms[k];
      if l == |ms| {
        assert ms'[k].value.1 in files;
      } else {
        assert ms'[l] == ms[l];
      }
    }
  }

  /** The file-set half of `MovesKeptStep`. */
  lemma MovesFrameStep(files0: set<string>, files: set<string>, files': set<string>, ms: seq<Move>, src: string, m: Move)
    requires files == files0 - Sources(ms) + Dests(ms) && |files| == |files0|
    requires m.Some? ==> m.value.0 == src && src in files && src !in Dests(ms) && m.value.1 !in files
    requires m.Some? ==> files' == files - {src} + {m.value.1}
    requires m.None? ==> files' == files
    ensures files' == files0 - Sources(ms + [m]) + Dests(ms + [m]) && |files'| == |files0|
  {
    MovesAppend(ms, m);
    if m.Some? {
      ReplaceKeepsCount(files, src, m.value.1);
    }
  }

  /** A property that holds at every index of `xs` and for `x` at the next index holds all along `xs + [x]`. */
  lemma AllAppend<T>(xs: seq<T>, x: T, p: (T, nat) -> bool)
    requires forall k :: 0 <= k < |xs| ==> p(xs[k], k)
    requires p(x, |xs|)
    ensures forall k :: 0 <= k < |xs| + 1 ==> p((xs + [x])[k], k)
  {
    forall k | 0 <= k < |xs| + 1
      ensures p((xs + [x])[k], k)
    {
      if k < |xs| {
        assert (xs + [x])[k] == xs[k];
      }
    }
  }

  /**
    A trace of a loop: `states[k]` is the state before the `k`-th pass, which produced
    `outcomes[k]` with counter `counters[k]`, and every pass satisfies the step property `p`.
  */
  ghost predicate Trace<S, O>(states: seq<S>, outcomes: seq<O>, counters: seq<nat>, p: (S, S, O, nat, nat) -> bool)
  {
    && |states| == |outcomes| + 1 && |counters| == |outcomes|
    && forall k :: 0 <= k < |outcomes| ==> p(states[k], states[k + 1], outcomes[k], counters[k], k)
  }

  /** One more pass satisfying `p` from the last state extends the trace. */
  lemma TraceAppend<S, O>(states: seq<S>, outcomes: seq<O>, counters: seq<nat>, next: S, o: O, n: nat,
                          p: (S, S, O, nat, nat) -> bool)
    requires Trace(states, outcomes, counters, p)
    requires p(states[|outcomes|], next, o, n, |outcomes|)
    ensures Trace(states + [next], outcomes + [o], counters + [n], p)
  {
    var states', outcomes', counters' := states + [next], outcomes + [o], counters + [n];
    forall k | 0 <= k < |outcomes'|
      ensures p(states'[k], states'[k + 1], outcomes'[k], counters'[k], k)
    {
      if k < |outcomes| {
        assert states'[k] == states[k] && states'[k + 1] == states[k + 1];
        assert outcomes'[k] == outcomes[k] && counters'[k] == counters[k];
      }
    }
  }

  // ---------------------------------------------------------------------------
  // FileRenamer.process_files: the loop
  // ---------------------------------------------------------------------------

  /** The full paths of the accepted listed files from index `from` on. */
  ghost function AcceptedFrom(path: string, entries: seq<string>, accepted: seq<string>, from: nat): set<string>
  {
    set m | from <= m < |entries| && Accepted(Ext(entries[m]), accepted) :: Join(path, entries[m])
  }

  lemma AcceptedFromStep(path: string, entries: seq<string>, accepted: seq<string>, i: nat)
    requires i < |entries| && Distinct(entries)
    ensures AcceptedFrom(path, entries, accepted, i + 1) <= AcceptedFrom(path, entries, accepted, i)
    ensures Join(path, entries[i]) !in AcceptedFrom(path, entries, accepted, i + 1)
    ensures Accepted(Ext(entries[i]), accepted) ==> Join(path, entries[i]) in AcceptedFrom(path, entries, accepted, i)
  {
    if Join(path, entries[i]) in AcceptedFrom(path, entries, accepted, i + 1) {
      var m :| i + 1 <= m < |entries| && Accepted(Ext(entries[m]), accepted) && Join(path, entries[m]) == Join(path, entries[i]);
      JoinInjective(path, entries[m], entries[i]);
    }
  }

  /** A pass can still finish on a later disk that kept the file and the locks. */
  lemma PassFinishesKept(fs: Fs, fs': Fs, path: string, entry: string, accepted: seq<string>,
                         datesOf: string -> FileDates, format: Formatter)
    requires PassFinishes(fs, path, entry, accepted, datesOf, format)
    requires fs'.locked == fs.locked
    requires Accepted(Ext(entry), accepted) ==> Join(path, entry) in fs'.files
    ensures PassFinishes(fs', path, entry, accepted, datesOf, format)
  {
  }

  /** The move each rename outcome made. */
  function RenameMoves(os: seq<RenameOutcome>): (ms: seq<Move>)
    ensures |ms| == |os|
    ensures forall k :: 0 <= k < |os| ==> ms[k] == if os[k].Renamed? then Some((os[k].from, os[k].to)) else None
  {
    seq(|os|, k requires 0 <= k < |os| => if os[k].Renamed? then Some((os[k].from, os[k].to)) else None)
  }

  lemma RenameMovesAppend(os: seq<RenameOutcome>, o: RenameOutcome)
    ensures RenameMoves(os + [o]) == RenameMoves(os) + [if o.Renamed? then Some((o.from, o.to)) else None]
  {
  }

  /**
    The disk after the loop has handled the first `|outcomes|` listed names: nothing but files
    moved, the accepted files still to come are in place and movable, and the renamed files are
    where they went.
  */
  ghost predicate RenameFilesKept(fs0: Fs, fs: Fs, path: string, entries: seq<string>, accepted: seq<string>,
                                  outcomes: seq<RenameOutcome>)
  {
    && |outcomes| <= |entries|
    && fs.dirs == fs0.dirs && fs.locked == fs0.locked
    && MovesKept(fs0.files, fs.files, RenameMoves(outcomes), AcceptedFrom(path, entries, accepted, |outcomes|))
  }

  /** One more listed name handled as `RenameStepMoves` describes keeps `RenameFilesKept`. */
  lemma RenameFilesKeptStep(fs0: Fs, fs: Fs, next: Fs, path: string, entries: seq<string>, accepted: seq<string>,
                            outcomes: seq<RenameOutcome>, o: RenameOutcome)
    requires Distinct(entries) && |outcomes| < |entries|
    requires RenameFilesKept(fs0, fs, path, entries, accepted, outcomes)
    requires o.Renamed? ==>
      && Accepted(Ext(entries[|outcomes|]), accepted) && o.from == Join(path, entries[|outcomes|])
      && o.to !in fs.files && next.files == fs.files - {o.from} + {o.to}
    requires !o.Renamed? ==> next == fs
    requires next.dirs == fs.dirs && next.locked == fs.locked
    ensures RenameFilesKept(fs0, next, path, entries, accepted, outcomes + [o])
  {
    var i := |outcomes|;
    var file := Join(path, entries[i]);
    AcceptedFromStep(path, entries, accepted, i);
    var m: Move := if o.Renamed? then Some((o.from, o.to)) else None;
    MovesKeptStep(fs0.files, fs.files, next.files, RenameMoves(outcomes),
                  AcceptedFrom(path, entries, accepted, i), AcceptedFrom(path, entries, accepted, i + 1), file, m);
    RenameMovesAppend(outcomes, o);
  }

  /** `RenameStep` as a property of the `k`-th pass, for `Trace`. */
  ghost function RenameSteps(path: string, entries: seq<string>, accepted: seq<string>,
                             datesOf: string -> FileDates, format: Formatter): (Fs, Fs, RenameOutcome, nat, nat) -> bool
  {
    (fs: Fs, fs': Fs, o: RenameOutcome, n: nat, k: nat) =>
      k < |entries| && RenameStep(fs, fs', path, entries[k], accepted, datesOf, format, o, n)
  }

  lemma RenameStepsAt(fs: Fs, fs': Fs, o: RenameOutcome, n: nat, k: nat, path: string, entries: seq<string>,
                      accepted: seq<string>, datesOf: string -> FileDates, format: Formatter)
    requires k < |entries| && RenameStep(fs, fs', path, entries[k], accepted, datesOf, format, o, n)
    ensures RenameSteps(path, entries, accepted, datesOf, format)(fs, fs', o, n, k)
  {
  }

  /**
    `FileRenamer.process_files` over the listing `entries` of directory `path`. It returns one
    outcome per listed name, in order, with the counter each collision search stopped at and
    the disk before each pass. Each pass is the one `RenameStep` describes for that disk.
  */
  method ProcessRenames(fs: Fs, path: string, entries: seq<string>, accepted: seq<string>,
                        datesOf: string -> FileDates, format: Formatter)
    returns (outcomes: seq<RenameOutcome>, fs': Fs, counters: seq<nat>, states: seq<Fs>)
    requires path in fs.dirs && Distinct(entries)
    requires forall k :: 0 <= k < |entries| ==> PassFinishes(fs, path, entries[k], accepted, datesOf, format)
    ensures |outcomes| == |entries| && |counters| == |entries| && |states| == |entries| + 1
    ensures states[0] == fs && states[|entries|] == fs'
    ensures fs'.files == fs.files - Sources(RenameMoves(outcomes)) + Dests(RenameMoves(outcomes))
    ensures forall k :: 0 <= k < |entries| && outcomes[k].Renamed? ==> outcomes[k].to in fs'.files
    ensures forall k, l :: 0 <= k < l < |entries| && outcomes[k].Renamed? && outcomes[l].Renamed? ==>
      outcomes[k].to != outcomes[l].to
    ensures |fs'.files| == |fs.files| && fs'.dirs == fs.dirs && fs'.locked == fs.locked
    ensures forall k :: 0 <= k < |entries| ==>
      RenameStep(states[k], states[k + 1], path, entries[k], accepted, datesOf, format, outcomes[k], counters[k])
  {
    outcomes, counters, states := [], [], [fs];
    fs' := fs;
    MovesKeptStart(fs.files, AcceptedFrom(path, entries, accepted, 0));
    while |outcomes| < |entries|
      invariant RenameFilesKept(fs, fs', path, entries, accepted, outcomes)
      invariant Trace(states, outcomes, counters, RenameSteps(path, entries, accepted, datesOf, format))
      invariant states[0] == fs && states[|outcomes|] == fs'
      decreases |entries| - |outcomes|
    {
      var i := |outcomes|;
      AcceptedFromStep(path, entries, accepted, i);
      PassFinishesKept(fs, fs', path, entries[i], accepted, datesOf, format);
      var outcome, next, n := RenameEntry(fs', path, entries[i], accepted, datesOf, format);
      RenameStepMoves(fs', next, path, entries[i], accepted, datesOf, format, outcome, n);
      RenameFilesKeptStep(fs, fs', next, path, entries, accepted, outcomes, outcome);
      RenameStepsAt(fs', next, outcome, n, i, path, entries, accepted, datesOf, format);
      TraceAppend(states, outcomes, counters, next, outcome, n, RenameSteps(path, entries, accepted, datesOf, format));
      outcomes, counters, states := outcomes + [outcome], counters + [n], states + [next];
      fs' := next;
      assert states[|outcomes|] == fs';
    }
    RenamedAll(fs, fs', path, entries, accepted, datesOf, format, outcomes, counters, states);
  }

  /** What `RenameFilesKept` and the trace say once every listed name has been handled. */
  lemma RenamedAll(fs: Fs, fs': Fs, path: string, entries: seq<string>, accepted: seq<string>,
                   datesOf: string -> FileDates, format: Formatter,
                   outcomes: seq<RenameOutcome>, counters: seq<nat>, states: seq<Fs>)
    requires |outcomes| == |entries|
    requires RenameFilesKept(fs, fs', path, entries, accepted, outcomes)
    requires Trace(states, outcomes, counters, RenameSteps(path, entries, accepted, datesOf, format))
    ensures fs'.files == fs.files - Sources(RenameMoves(outcomes)) + Dests(RenameMoves(outcomes))
    ensures forall k :: 0 <= k < |entries| && outcomes[k].Renamed? ==> outcomes[k].to in fs'.files
    ensures forall k, l :: 0 <= k < l < |entries| && outcomes[k].Renamed? && outcomes[l].Renamed? ==>
      outcomes[k].to != outcomes[l].to
    ensures |fs'.files| == |fs.files| && fs'.dirs == fs.dirs && fs'.locked == fs.locked
    ensures forall k :: 0 <= k < |entries| ==>
      RenameStep(states[k], states[k + 1], path, entries[k], accepted, datesOf, format, outcomes[k], counters[k])
  {
    RenamedTargets(outcomes, fs.files, fs'.files, AcceptedFrom(path, entries, accepted, |outcomes|));
  }

  /** `MovesKept` read back in terms of the rename outcomes. */
  lemma RenamedTargets(os: seq<RenameOutcome>, files0: set<string>, files: set<string>, pending: set<string>)
    requires MovesKept(files0, files, RenameMoves(os), pending)
    ensures forall k :: 0 <= k < |os| && os[k].Renamed? ==> os[k].to in files
    ensures forall k, l :: 0 <= k < l < |os| && os[k].Renamed? && os[l].Renamed? ==> os[k].to != os[l].to
  {
    var ms := RenameMoves(os);
    assert forall k :: 0 <= k < |os| && os[k].Renamed? ==> ms[k] == Some((os[k].from, os[k].to));
  }

  // ---------------------------------------------------------------------------
  // FileSorter.process_files
  // ---------------------------------------------------------------------------

  /**
    What one pass of the sorter's `process_files` loop body does with the listed name `entry`,
    taking the disk from `fs` to `fs'`; `n` is the counter the collision search stopped at. A
    file with another extension is skipped, and a missing or locked accepted file fails; neither
    touches the disk. Otherwise the file moves from `input\entry` to its `n`-th destination,
    every earlier destination being taken, and its sort directory exists afterwards.
  */
  ghost predicate SortStep(fs: Fs, fs': Fs, inputPath: string, basePath: string, entry: string,
                           accepted: seq<string>, o: MoveOutcome, n: nat)
  {
    var src := BackslashJoin(inputPath, entry);
    && (o.Skipped? <==> !Accepted(Ext(entry), accepted))
    && (o.MoveFailed? <==> Accepted(Ext(entry), accepted) && (src !in fs.files || src in fs.locked))
    && (!o.Moved? ==> o.name == entry && fs' == fs)
    && (o.Moved? ==>
          && o.from == src
          && o.to == Destination(basePath, entry, n)
          && (forall j :: 0 <= j < n ==> Destination(basePath, entry, j) in Occupied(fs))
          && o.to !in Occupied(fs)
          && fs'.files == fs.files - {src} + {o.to}
          && fs'.dirs == fs.dirs + {SortDir(basePath, entry)})
    && fs'.locked == fs.locked
  }

  /** One pass of the sorter's `process_files` loop body for the listed name `entry`. */
  method SortEntry(fs: Fs, inputPath: string, basePath: string, entry: string, accepted: seq<string>)
    returns (outcome: MoveOutcome, fs': Fs, n: nat)
    ensures SortStep(fs, fs', inputPath, basePath, entry, accepted, outcome, n)
  {
    if !Accepted(Ext(entry), accepted) {
      return Skipped(entry), fs, 0;
    }
    outcome, fs', n := MoveFile(fs, inputPath, basePath, entry);
  }

  /** A listed file's move fails exactly when it is accepted and locked. */
  ghost predicate FailedIffLocked(o: MoveOutcome, k: nat, inputPath: string, entries: seq<string>,
                                  accepted: seq<string>, locked: set<string>)
  {
    k < |entries| &&
    (o.MoveFailed? <==> Accepted(Ext(entries[k]), accepted) && BackslashJoin(inputPath, entries[k]) in locked)
  }

  /** The full paths of the accepted listed files from index `from` on. */
  ghost function SourcesFrom(inputPath: string, entries: seq<string>, accepted: seq<string>, from: nat): set<string>
  {
    set m | from <= m < |entries| && Accepted(Ext(entries[m]), accepted) :: BackslashJoin(inputPath, entries[m])
  }

  lemma SourcesFromStep(inputPath: string, entries: seq<string>, accepted: seq<string>, i: nat)
    requires i < |entries| && Distinct(entries)
    ensures SourcesFrom(inputPath, entries, accepted, i + 1) <= SourcesFrom(inputPath, entries, accepted, i)
    ensures BackslashJoin(inputPath, entries[i]) !in SourcesFrom(inputPath, entries, accepted, i + 1)
    ensures Accepted(Ext(entries[i]), accepted) ==> BackslashJoin(inputPath, entries[i]) in SourcesFrom(inputPath, entries, accepted, i)
  {
  }

  /** The sort directories of the first `n` listed names. */
  ghost function SortDirs(basePath: string, entries: seq<string>, n: nat): set<string>
  {
    set k | 0 <= k < n && k < |entries| :: SortDir(basePath, entries[k])
  }

  lemma SortDirsNext(basePath: string, entries: seq<string>, i: nat)
    requires i < |entries|
    ensures SortDirs(basePath, entries, i + 1) == SortDirs(basePath, entries, i) + {SortDir(basePath, entries[i])}
  {
  }

  /** The move each sort outcome made. */
  function SortMoves(os: seq<MoveOutcome>): (ms: seq<Move>)
    ensures |ms| == |os|
    ensures forall k :: 0 <= k < |os| ==> ms[k] == if os[k].Moved? then Some((os[k].from, os[k].to)) else None
  {
    seq(|os|, k requires 0 <= k < |os| => if os[k].Moved? then Some((os[k].from, os[k].to)) else None)
  }

  lemma SortMovesAppend(os: seq<MoveOutcome>, o: MoveOutcome)
    ensures SortMoves(os + [o]) == SortMoves(os) + [if o.Moved? then Some((o.from, o.to)) else None]
  {
  }

  /** The state after the sorter has handled the first `|outcomes|` listed names. */
  ghost predicate SortedSoFar(fs0: Fs, fs: Fs, inputPath: string, basePath: string, entries: seq<string>,
                              accepted: seq<string>, outcomes: seq<MoveOutcome>)
  {
    && |outcomes| <= |entries|
    && fs.locked == fs0.locked
    && MovesKept(fs0.files, fs.files, SortMoves(outcomes), SourcesFrom(inputPath, entries, accepted, |outcomes|))
    && SortDirsKept(fs0, fs, basePath, entries, |outcomes|)
    && AllFailedIffLocked(outcomes, inputPath, entries, accepted, fs0.locked)
  }

  /** The directories after the first `i` listed names: only sort directories of those were added. */
  ghost predicate SortDirsKept(fs0: Fs, fs: Fs, basePath: string, entries: seq<string>, i: nat)
  {
    fs0.dirs <= fs.dirs <= fs0.dirs + SortDirs(basePath, entries, i)
  }

  lemma SortDirsKeptStep(fs0: Fs, fs: Fs, next: Fs, basePath: string, entries: seq<string>, i: nat)
    requires i < |entries| && SortDirsKept(fs0, fs, basePath, entries, i)
    requires next.dirs == fs.dirs || next.dirs == fs.dirs + {SortDir(basePath, entries[i])}
    ensures SortDirsKept(fs0, next, basePath, entries, i + 1)
  {
    SortDirsNext(basePath, entries, i);
  }

  /** Every recorded outcome so far fails exactly when its file is accepted and locked. */
  ghost predicate AllFailedIffLocked(outcomes: seq<MoveOutcome>, inputPath: string, entries: seq<string>,
                                     accepted: seq<string>, locked: set<string>)
  {
    forall k :: 0 <= k < |outcomes| ==> FailedIffLocked(outcomes[k], k, inputPath, entries, accepted, locked)
  }

  /** One more listed name handled as `SortStep` describes keeps `SortedSoFar`. */
  lemma SortedSoFarStep(fs0: Fs, fs: Fs, next: Fs, inputPath: string, basePath: string, entries: seq<string>,
                        accepted: seq<string>, outcomes: seq<MoveOutcome>, o: MoveOutcome, n: nat)
    requires Distinct(entries) && |outcomes| < |entries|
    requires SortedSoFar(fs0, fs, inputPath, basePath, entries, accepted, outcomes)
    requires SortStep(fs, next, inputPath, basePath, entries[|outcomes|], accepted, o, n)
    ensures SortedSoFar(fs0, next, inputPath, basePath, entries, accepted, outcomes + [o])
  {
    var i := |outcomes|;
    SourcesFromStep(inputPath, entries, accepted, i);
    SortMovesKeptStep(fs0.files, fs, next, inputPath, basePath, entries, accepted, outcomes, o, n);
    SortDirsKeptStep(fs0, fs, next, basePath, entries, i);
    FailedIffLockedStep(fs, next, inputPath, basePath, entries, accepted, outcomes, o, n);
  }

  /** The `AllFailedIffLocked` half of `SortedSoFarStep`: an accepted file handled is present, so only a lock fails it. */
  lemma FailedIffLockedStep(fs: Fs, next: Fs, inputPath: string, basePath: string, entries: seq<string>,
                            accepted: seq<string>, outcomes: seq<MoveOutcome>, o: MoveOutcome, n: nat)
    requires |outcomes| < |entries|
    requires Accepted(Ext(entries[|outcomes|]), accepted) ==> BackslashJoin(inputPath, entries[|outcomes|]) in fs.files
    requires AllFailedIffLocked(outcomes, inputPath, entries, accepted, fs.locked)
    requires SortStep(fs, next, inputPath, basePath, entries[|outcomes|], accepted, o, n)
    ensures AllFailedIffLocked(outcomes + [o], inputPath, entries, accepted, fs.locked)
  {
    assert FailedIffLocked(o, |outcomes|, inputPath, entries, accepted, fs.locked);
    AllAppend(outcomes, o, (x, k) => FailedIffLocked(x, k, inputPath, entries, accepted, fs.locked));
  }

  /** The `MovesKept` half of `SortedSoFarStep`. */
  lemma SortMovesKeptStep(files0: set<string>, fs: Fs, next: Fs, inputPath: string, basePath: string,
                          entries: seq<string>, accepted: seq<string>, outcomes: seq<MoveOutcome>, o: MoveOutcome, n: nat)
    requires Distinct(entries) && |outcomes| < |entries|
    requires MovesKept(files0, fs.files, SortMoves(outcomes), SourcesFrom(inputPath, entries, accepted, |outcomes|))
    requires SortStep(fs, next, inputPath, basePath, entries[|outcomes|], accepted, o, n)
    ensures MovesKept(files0, next.files, SortMoves(outcomes + [o]), SourcesFrom(inputPath, entries, accepted, |outcomes| + 1))
  {
    var i := |outcomes|;
    var src := BackslashJoin(inputPath, entries[i]);
    SourcesFromStep(inputPath, entries, accepted, i);
    var m: Move := if o.Moved? then Some((o.from, o.to)) else None;
    MovesKeptStep(files0, fs.files, next.files, SortMoves(outcomes),
                  SourcesFrom(inputPath, entries, accepted, i), SourcesFrom(inputPath, entries, accepted, i + 1), src, m);
    SortMovesAppend(outcomes, o);
  }

  /** `SortStep` as a property of the `k`-th pass, for `Trace`. */
  ghost function SortSteps(inputPath: string, basePath: string, entries: seq<string>, accepted: seq<string>)
    : (Fs, Fs, MoveOutcome, nat, nat) -> bool
  {
    (fs: Fs, fs': Fs, o: MoveOutcome, n: nat, k: nat) =>
      k < |entries| && SortStep(fs, fs', inputPath, basePath, entries[k], accepted, o, n)
  }

  lemma SortStepsAt(fs: Fs, fs': Fs, o: MoveOutcome, n: nat, k: nat, inputPath: string, basePath: string,
                    entries: seq<string>, accepted: seq<string>)
    requires k < |entries| && SortStep(fs, fs', inputPath, basePath, entries[k], accepted, o, n)
    ensures SortSteps(inputPath, basePath, entries, accepted)(fs, fs', o, n, k)
  {
  }

  /**
    `FileSorter.process_files` with `PictureSorter.move_file` over the listing `entries` of
    `inputPath`. It returns one outcome per listed name, in order, with the counter each
    collision search stopped at and the disk before each pass. Each pass is the one `SortStep`
    describes for that disk.
  */
  method ProcessSorts(fs: Fs, inputPath: string, basePath: string, entries: seq<string>, accepted: seq<string>)
    returns (outcomes: seq<MoveOutcome>, fs': Fs, counters: seq<nat>, states: seq<Fs>)
    requires Distinct(entries)
    requires forall k :: 0 <= k < |entries| && Accepted(Ext(entries[k]), accepted) ==>
      BackslashJoin(inputPath, entries[k]) in fs.files
    ensures |outcomes| == |entries| && |counters| == |entries| && |states| == |entries| + 1
    ensures states[0] == fs && states[|entries|] == fs'
    ensures fs'.files == fs.files - Sources(SortMoves(outcomes)) + Dests(SortMoves(outcomes))
    ensures forall k :: 0 <= k < |outcomes| && outcomes[k].Moved? ==> outcomes[k].to in fs'.files
    ensures forall k, l :: 0 <= k < l < |outcomes| && outcomes[k].Moved? && outcomes[l].Moved? ==>
      outcomes[k].to != outcomes[l].to
    ensures |fs'.files| == |fs.files| && fs'.locked == fs.locked
    ensures fs.dirs <= fs'.dirs <= fs.dirs + SortDirs(basePath, entries, |entries|)
    ensures forall k :: 0 <= k < |outcomes| ==>
      (outcomes[k].MoveFailed? <==>
         Accepted(Ext(entries[k]), accepted) && BackslashJoin(inputPath, entries[k]) in fs.locked)
    ensures forall k :: 0 <= k < |entries| ==>
      SortStep(states[k], states[k + 1], inputPath, basePath, entries[k], accepted, outcomes[k], counters[k])
  {
    outcomes, counters, states := [], [], [fs];
    fs' := fs;
    MovesKeptStart(fs.files, SourcesFrom(inputPath, entries, accepted, 0));
    while |outcomes| < |entries|
      invariant SortedSoFar(fs, fs', inputPath, basePath, entries, accepted, outcomes)
      invariant Trace(states, outcomes, counters, SortSteps(inputPath, basePath, entries, accepted))
      invariant states[0] == fs && states[|outcomes|] == fs'
      decreases |entries| - |outcomes|
    {
      var i := |outcomes|;
      SourcesFromStep(inputPath, entries, accepted, i);
      var outcome, next, n := SortEntry(fs', inputPath, basePath, entries[i], accepted);
      SortedSoFarStep(fs, fs', next, inputPath, basePath, entries, accepted, outcomes, outcome, n);
      SortStepsAt(fs', next, outcome, n, i, inputPath, basePath, entries, accepted);
      TraceAppend(states, outcomes, counters, next, outcome, n, SortSteps(inputPath, basePath, entries, accepted));
      outcomes, counters, states := outcomes + [outcome], counters + [n], states + [next];
      fs' := next;
      assert states[|outcomes|] == fs';
    }
    SortedAll(fs, fs', inputPath, basePath, entries, accepted, outcomes, counters, states);
  }

  /** What `SortedSoFar` and the trace say once every listed name has been handled. */
  lemma SortedAll(fs: Fs, fs': Fs, inputPath: string, basePath: string, entries: seq<string>, accepted: seq<string>,
                  outcomes: seq<MoveOutcome>, counters: seq<nat>, states: seq<Fs>)
    requires |outcomes| == |entries|
    requires SortedSoFar(fs, fs', inputPath, basePath, entries, accepted, outcomes)
    requires Trace(states, outcomes, counters, SortSteps(inputPath, basePath, entries, accepted))
    ensures fs'.files == fs.files - Sources(SortMoves(outcomes)) + Dests(SortMoves(outcomes))
    ensures forall k :: 0 <= k < |outcomes| && outcomes[k].Moved? ==> outcomes[k].to in fs'.files
    ensures forall k, l :: 0 <= k < l < |outcomes| && outcomes[k].Moved? && outcomes[l].Moved? ==>
      outcomes[k].to != outcomes[l].to
    ensures |fs'.files| == |fs.files| && fs'.locked == fs.locked
    ensures fs.dirs <= fs'.dirs <= fs.dirs + SortDirs(basePath, entries, |entries|)
    ensures forall k :: 0 <= k < |outcomes| ==>
      (outcomes[k].MoveFailed? <==>
         Accepted(Ext(entries[k]), accepted) && BackslashJoin(inputPath, entries[k]) in fs.locked)
    ensures forall k :: 0 <= k < |entries| ==>
      SortStep(states[k], states[k + 1], inputPath, basePath, entries[k], accepted, outcomes[k], counters[k])
  {
    MovedTargets(outcomes, fs.files, fs'.files, SourcesFrom(inputPath, entries, accepted, |outcomes|));
  }

  /** `MovesKept` read back in terms of the sort outcomes. */
  lemma MovedTargets(os: seq<MoveOutcome>, files0: set<string>, files: set<string>, pending: set<string>)
    requires MovesKept(files0, files, SortMoves(os), pending)
    ensures forall k :: 0 <= k < |os| && os[k].Moved? ==> os[k].to in files
    ensures forall k, l :: 0 <= k < l < |os| && os[k].Moved? && os[l].Moved? ==> os[k].to != os[l].to
  {
    var ms := SortMoves(os);
    assert forall k :: 0 <= k < |os| && os[k].Moved? ==> ms[k] == Some((os[k].from, os[k].to));
  }
}

=== FILE: date_name.dfy ===
/**
  `DateName`: the new base name of a media file is the oldest of its creation time, its
  capture time (the EXIF `DateTimeOriginal` tag) and its modification time, each formatted as
  `YYYYMMDD_HHMMSS`, and chosen as the minimum in string order.
*/
module DateName {
  import opened Wrappers
  import opened Strings
  import opened Decimal

  /**
    What the system reports about one file: creation and modification timestamps (float
    seconds, as `os.path.getctime`/`getmtime` return them) and the raw text of the EXIF
    `DateTimeOriginal` tag when the file carries one.
  */
  datatype FileDates = FileDates(created: real, modified: real, dateTimeOriginal: Option<string>)

  /**
    `datetime.fromtimestamp(t).strftime(date_format)`: it depends on the local time zone, so the
    model takes it as a parameter and assumes nothing about it.
  */
  type Formatter = real -> string

  /** `get_date_created`: a zero (falsy) timestamp yields no date. */
  function DateCreated(d: FileDates, format: Formatter): (r: Option<string>)
    ensures r.None? <==> d.created == 0.0
    ensures r.Some? ==> r.value == format(d.created)
  {
    if d.created != 0.0 then Some(format(d.created)) else None
  }

  /** `get_date_modified`: a zero (falsy) timestamp yields no date. */
  function DateModified(d: FileDates, format: Formatter): (r: Option<string>)
    ensures r.None? <==> d.modified == 0.0
    ensures r.Some? ==> r.value == format(d.modified)
  {
    if d.modified != 0.0 then Some(format(d.modified)) else None
  }

  /**
    The capture-time normalisation, in the program's order: delete every `:`, strip outer
    whitespace, then turn each remaining space into `_`.
  */
  function NormaliseTaken(tag: string): (r: string)
    ensures ':' !in r && ' ' !in r
    ensures |r| <= |tag|
  {
    var stripped := Strip(RemoveChar(tag, ':'));
    assert ':' !in stripped;
    ReplaceChar(stripped, ' ', '_')
  }

  /** `get_date_taken`: the normalised tag text, or nothing when the tag is absent. */
  function DateTaken(d: FileDates): (r: Option<string>)
    ensures r.None? <==> d.dateTimeOriginal.None?
    ensures r.Some? ==> r.value == NormaliseTaken(d.dateTimeOriginal.value)
  {
    match d.dateTimeOriginal
    case None => None
    case Some(tag) => Some(NormaliseTaken(tag))
  }

  /** The three candidates in the order `determine_name` lists them. */
  function Candidates(d: FileDates, format: Formatter): (cs: seq<Option<string>>)
    ensures |cs| == 3
  {
    [DateCreated(d, format), DateTaken(d), DateModified(d, format)]
  }

  /**
    Python's `min` over the present values of `rest`, continuing from the running minimum
    `best`: an item replaces the running minimum only when it is strictly smaller.
  */
  function MinFrom(best: Option<string>, rest: seq<Option<string>>): (r: Option<string>)
    ensures r.None? <==> best.None? && forall o :: o in rest ==> o.None?
    ensures r.Some? ==> r == best || r in rest
    ensures r.Some? && best.Some? ==> LessEq(r.value, best.value)
    ensures r.Some? ==> forall o :: o in rest && o.Some? ==> LessEq(r.value, o.value)
    decreases |rest|
  {
    if |rest| == 0 then best
    else
      var item := rest[0];
      var next := if item.Some? && (best.None? || Less(item.value, best.value)) then item else best;
      var r := MinFrom(next, rest[1..]);
      assert forall o :: o in rest ==> o == item || o in rest[1..];
      if r.Some? && item.Some? && best.Some? then
        LessTotal(item.value, best.value);
        if next == item then
          LessEqTransitive(r.value, item.value, best.value);
          r
        else
          LessEqTransitive(r.value, best.value, item.value);
          r
      else r
  }

  /**
    `determine_name`: the minimum, in string order, of the candidates that are present, or
    nothing when every candidate is absent.
  */
  function DetermineName(d: FileDates, format: Formatter): (r: Option<string>)
    ensures r.None? <==> d.created == 0.0 && d.modified == 0.0 && d.dateTimeOriginal.None?
    ensures r.Some? ==> r in Candidates(d, format)
    ensures r.Some? ==> forall c :: c in Candidates(d, format) && c.Some? ==> LessEq(r.value, c.value)
  {
    MinFrom(None, Candidates(d, format))
  }

  // ---------------------------------------------------------------------------
  // String order of date stamps is chronological order
  // ---------------------------------------------------------------------------

  /** A `YYYYMMDD_HHMMSS` stamp: fifteen characters, digits except for `_` at index 8. */
  predicate IsStamp(s: string)
  {
    |s| == 15 && s[8] == '_' && forall i :: 0 <= i < 15 && i != 8 ==> IsDigit(s[i])
  }

  /** Year, month, day, hour, minute and second of a stamp. */
  function Fields(s: string): (f: seq<nat>)
    requires IsStamp(s)
    ensures |f| == 6
  {
    [Num(s[0..4]), Num(s[4..6]), Num(s[6..8]), Num(s[9..11]), Num(s[11..13]), Num(s[13..15])]
  }

  /** Lexicographic order on equal-length field tuples: the first differing field decides. */
  predicate LexLess(xs: seq<nat>, ys: seq<nat>)
    decreases |xs|
  {
    |xs| > 0 && |ys| > 0 && (xs[0] < ys[0] || (xs[0] == ys[0] && LexLess(xs[1..], ys[1..])))
  }

  /** Stamp `a` denotes an earlier moment than stamp `b`. */
  predicate Earlier(a: string, b: string)
    requires IsStamp(a) && IsStamp(b)
  {
    LexLess(Fields(a), Fields(b))
  }

  /** Comparing one fixed-width digit field of two strings, then the rest. */
  lemma FieldStep(a: string, b: string, k: nat, w: nat)
    requires k + w <= |a| && k + w <= |b|
    requires AllDigits(a[k..k + w]) && AllDigits(b[k..k + w])
    ensures Less(a[k..], b[k..]) <==>
      || Num(a[k..k + w]) < Num(b[k..k + w])
      || (Num(a[k..k + w]) == Num(b[k..k + w]) && Less(a[k + w..], b[k + w..]))
  {
    LessSplit(a[k..], b[k..], w);
    assert a[k..][..w] == a[k..k + w] && b[k..][..w] == b[k..k + w];
    assert a[k..][w..] == a[k + w..] && b[k..][w..] == b[k + w..];
    LessIsNumericLess(a[k..k + w], b[k..k + w]);
    if Num(a[k..k + w]) == Num(b[k..k + w]) {
      NumInjective(a[k..k + w], b[k..k + w]);
    }
  }

  /** The six digit fields of a stamp are digit strings. */
  lemma StampFieldsAreDigits(s: string)
    requires IsStamp(s)
    ensures AllDigits(s[0..4]) && AllDigits(s[4..6]) && AllDigits(s[6..8])
    ensures AllDigits(s[9..11]) && AllDigits(s[11..13]) && AllDigits(s[13..15])
  {
    assert forall i :: 0 <= i < 4 ==> s[0..4][i] == s[i];
    assert forall i :: 0 <= i < 2 ==> s[4..6][i] == s[4 + i] && s[6..8][i] == s[6 + i];
    assert forall i :: 0 <= i < 2 ==> s[9..11][i] == s[9 + i] && s[11..13][i] == s[11 + i];
    assert forall i :: 0 <= i < 2 ==> s[13..15][i] == s[13 + i];
  }

  /** Lexicographic order on six-field tuples, written out field by field. */
  lemma LexLessSix(xs: seq<nat>, ys: seq<nat>)
    requires |xs| == 6 && |ys| == 6
    ensures LexLess(xs, ys) <==>
      xs[0] < ys[0] || (xs[0] == ys[0] && (
      xs[1] < ys[1] || (xs[1] == ys[1] && (
      xs[2] < ys[2] || (xs[2] == ys[2] && (
      xs[3] < ys[3] || (xs[3] == ys[3] && (
      xs[4] < ys[4] || (xs[4] == ys[4] && xs[5] < ys[5])))))))))
  {
    assert xs[0..] == xs && ys[0..] == ys;
    LexLessUnfold(xs, ys, 0);
    LexLessUnfold(xs, ys, 1);
    LexLessUnfold(xs, ys, 2);
    LexLessUnfold(xs, ys, 3);
    LexLessUnfold(xs, ys, 4);
    LexLessUnfold(xs, ys, 5);
    assert !LexLess(xs[6..], ys[6..]);
  }

  lemma LexLessUnfold(xs: seq<nat>, ys: seq<nat>, k: nat)
    requires k < |xs| && k < |ys|
    ensures LexLess(xs[k..], ys[k..]) <==>
      xs[k] < ys[k] || (xs[k] == ys[k] && LexLess(xs[k + 1..], ys[k + 1..]))
  {
    assert xs[k..][1..] == xs[k + 1..] && ys[k..][1..] == ys[k + 1..];
  }

  /** String order of the time parts `HHMMSS` of two stamps, field by field. */
  lemma StampTimeLess(a: string, b: string)
    requires IsStamp(a) && IsStamp(b)
    ensures Less(a[9..], b[9..]) <==>
      Num(a[9..11]) < Num(b[9..11]) || (Num(a[9..11]) == Num(b[9..11]) && (
      Num(a[11..13]) < Num(b[11..13]) || (Num(a[11..13]) == Num(b[11..13]) &&
      Num(a[13..15]) < Num(b[13..15]))))
  {
    StampFieldsAreDigits(a);
    StampFieldsAreDigits(b);
    FieldStep(a, b, 9, 2);
    FieldStep(a, b, 11, 2);
    FieldStep(a, b, 13, 2);
    assert !Less(a[15..], b[15..]);
  }

  /** String order of two stamps: the date part `YYYYMMDD` first, then the time part. */
  lemma StampDateLess(a: string, b: string)
    requires IsStamp(a) && IsStamp(b)
    ensures Less(a, b) <==>
      Num(a[0..4]) < Num(b[0..4]) || (Num(a[0..4]) == Num(b[0..4]) && (
      Num(a[4..6]) < Num(b[4..6]) || (Num(a[4..6]) == Num(b[4..6]) && (
      Num(a[6..8]) < Num(b[6..8]) || (Num(a[6..8]) == Num(b[6..8]) &&
      Less(a[9..], b[9..]))))))
  {
    StampFieldsAreDigits(a);
    StampFieldsAreDigits(b);
    assert a[0..] == a && b[0..] == b;
    FieldStep(a, b, 0, 4);
    FieldStep(a, b, 4, 2);
    FieldStep(a, b, 6, 2);
    LessSplit(a[8..], b[8..], 1);
    assert a[8..][..1] == b[8..][..1];
    assert a[8..][1..] == a[9..] && b[8..][1..] == b[9..];
  }

  /** String order of two stamps, written out field by field on the digit values. */
  lemma StampLessByFields(a: string, b: string)
    requires IsStamp(a) && IsStamp(b)
    ensures Less(a, b) <==>
      var fa, fb := Fields(a), Fields(b);
      fa[0] < fb[0] || (fa[0] == fb[0] && (
      fa[1] < fb[1] || (fa[1] == fb[1] && (
      fa[2] < fb[2] || (fa[2] == fb[2] && (
      fa[3] < fb[3] || (fa[3] == fb[3] && (
      fa[4] < fb[4] || (fa[4] == fb[4] && fa[5] < fb[5])))))))))
  {
    StampDateLess(a, b);
    StampTimeLess(a, b);
  }

  /**
    For zero-padded stamps, string order is chronological order: this is what makes the string
    minimum of `determine_name` the oldest date.
  */
  lemma StampOrderIsChronological(a: string, b: string)
    requires IsStamp(a) && IsStamp(b)
    ensures Less(a, b) <==> Earlier(a, b)
  {
    StampLessByFields(a, b);
    LexLessSix(Fields(a), Fields(b));
  }

  /**
    When every present candidate is a stamp, the chosen name is the oldest: no present
    candidate denotes an earlier moment.
  */
  lemma DetermineNameIsOldest(d: FileDates, format: Formatter)
    requires forall c :: c in Candidates(d, format) && c.Some? ==> IsStamp(c.value)
    ensures DetermineName(d, format).Some? ==>
      var r := DetermineName(d, format).value;
      IsStamp(r) && forall c :: c in Candidates(d, format) && c.Some? ==> !Earlier(c.value, r)
  {
    var n := DetermineName(d, format);
    if n.Some? {
      var r := n.value;
      forall c | c in Candidates(d, format) && c.Some?
        ensures !Earlier(c.value, r)
      {
        StampOrderIsChronological(c.value, r);
        LessAsymmetric(r, c.value);
        LessIrreflexive(r);
      }
    }
  }

  // ---------------------------------------------------------------------------
  // Capture-time normalisation of well-formed EXIF text
  // ---------------------------------------------------------------------------

  /** EXIF date-time text `YYYY:MM:DD HH:MM:SS`. */
  predicate IsExifDateTime(t: string)
  {
    && |t| == 19
    && t[4] == ':' && t[7] == ':' && t[10] == ' ' && t[13] == ':' && t[16] == ':'
    && forall i :: 0 <= i < 19 && i !in {4, 7, 10, 13, 16} ==> IsDigit(t[i])
  }

  /** Deleting a character from a suffix whose first occurrence of it is at a known index. */
  lemma RemoveCharFrom(s: string, j: nat, i: nat, c: char)
    requires j <= i < |s| && s[i] == c && c !in s[j..i]
    ensures RemoveChar(s[j..], c) == s[j..i] + RemoveChar(s[i + 1..], c)
  {
    var t := s[j..];
    assert t == s[j..i] + ([s[i]] + s[i + 1..]);
    RemoveCharAppend(s[j..i], [s[i]] + s[i + 1..], c);
    RemoveCharAbsent(s[j..i], c);
    assert ([s[i]] + s[i + 1..])[1..] == s[i + 1..];
  }

  /** Deleting the four colons of EXIF date-time text leaves `YYYYMMDD HHMMSS`. */
  lemma ExifColonsRemoved(t: string)
    requires IsExifDateTime(t)
    ensures RemoveChar(t, ':') == t[0..4] + t[5..7] + t[8..13] + t[14..16] + t[17..19]
  {
    ExifGroupsAreDigits(t);
    DigitsLack(t[0..4], ':');
    DigitsLack(t[5..7], ':');
    DigitsLack(t[8..10], ':');
    DigitsLack(t[11..13], ':');
    DigitsLack(t[14..16], ':');
    DigitsLack(t[17..19], ':');
    assert t[8..13] == t[8..10] + [t[10]] + t[11..13];
    assert t[0..] == t;
    RemoveCharFrom(t, 0, 4, ':');
    RemoveCharFrom(t, 5, 7, ':');
    RemoveCharFrom(t, 8, 13, ':');
    RemoveCharFrom(t, 14, 16, ':');
    assert t[17..] == t[17..19];
    RemoveCharAbsent(t[17..], ':');
  }

  /** The digit groups of EXIF date-time text are digit strings. */
  lemma ExifGroupsAreDigits(t: string)
    requires IsExifDateTime(t)
    ensures AllDigits(t[0..4]) && AllDigits(t[5..7]) && AllDigits(t[8..10])
    ensures AllDigits(t[11..13]) && AllDigits(t[14..16]) && AllDigits(t[17..19])
  {
    assert forall i :: 0 <= i < 4 ==> t[0..4][i] == t[i];
    assert forall i :: 0 <= i < 2 ==> t[5..7][i] == t[5 + i] && t[8..10][i] == t[8 + i];
    assert forall i :: 0 <= i < 2 ==> t[11..13][i] == t[11 + i] && t[14..16][i] == t[14 + i];
    assert forall i :: 0 <= i < 2 ==> t[17..19][i] == t[17 + i];
  }

  /** A digit string contains no character other than digits, such as a space or a colon. */
  lemma DigitsLack(s: string, c: char)
    requires AllDigits(s) && !IsDigit(c)
    ensures c !in s
  {
  }

  /** Stripping then replacing the separating space of `date + " " + time`. */
  lemma NormaliseSpaced(date: string, time: string)
    requires AllDigits(date) && AllDigits(time) && |date| > 0 && |time| > 0
    ensures ReplaceChar(Strip(date + " " + time), ' ', '_') == date + "_" + time
  {
    var u := date + " " + time;
    assert u[0] == date[0] && u[|u| - 1] == time[|time| - 1];
    StripUnpadded(u);
    ReplaceSeparator(date, time);
  }

  /** Replacing spaces in `date + " " + time` touches only the separator. */
  lemma ReplaceSeparator(date: string, time: string)
    requires AllDigits(date) && AllDigits(time)
    ensures ReplaceChar(date + " " + time, ' ', '_') == date + "_" + time
  {
    DigitsLack(date, ' ');
    DigitsLack(time, ' ');
    ReplaceCharAppend(date + " ", time, ' ', '_');
    ReplaceCharAppend(date, " ", ' ', '_');
    ReplaceCharAbsent(date, ' ', '_');
    ReplaceCharAbsent(time, ' ', '_');
  }

  /** Deleting the colons of EXIF text leaves the date digits, a space and the time digits. */
  lemma ExifUnpadded(t: string)
    requires IsExifDateTime(t)
    ensures RemoveChar(t, ':') == (t[0..4] + t[5..7] + t[8..10]) + " " + (t[11..13] + t[14..16] + t[17..19])
  {
    ExifColonsRemoved(t);
    assert t[8..13] == t[8..10] + " " + t[11..13];
  }

  /**
    Well-formed EXIF text normalises to the stamp with the same digits, so a capture time
    competes with the formatted file times on equal terms.
  */
  lemma NormaliseExifDateTime(t: string)
    requires IsExifDateTime(t)
    ensures NormaliseTaken(t) == t[0..4] + t[5..7] + t[8..10] + "_" + t[11..13] + t[14..16] + t[17..19]
    ensures IsStamp(NormaliseTaken(t))
  {
    ExifGroupsAreDigits(t);
    var date := t[0..4] + t[5..7] + t[8..10];
    var time := t[11..13] + t[14..16] + t[17..19];
    AllDigitsAppend(t[0..4], t[5..7]);
    AllDigitsAppend(t[0..4] + t[5..7], t[8..10]);
    AllDigitsAppend(t[11..13], t[14..16]);
    AllDigitsAppend(t[11..13] + t[14..16], t[17..19]);
    ExifUnpadded(t);
    NormaliseSpaced(date, time);
    StampOf(date, time);
  }

  /** Eight date digits and six time digits around `_` form a stamp. */
  lemma StampOf(date: string, time: string)
    requires AllDigits(date) && AllDigits(time) && |date| == 8 && |time| == 6
    ensures IsStamp(date + "_" + time)
  {
    var stamp := date + "_" + time;
    assert forall i :: 0 <= i < 8 ==> stamp[i] == date[i];
    assert forall i :: 9 <= i < 15 ==> stamp[i] == time[i - 9];
  }

  /** The capture time quoted in the tag's native form becomes `20210501_100000`. */
  lemma NormaliseTakenExample()
    ensures NormaliseTaken("2021:05:01 10:00:00") == "20210501_100000"
  {
    ExampleIsExif();
    NormaliseExifDateTime("2021:05:01 10:00:00");
    ExampleGroups();
  }

  lemma ExampleIsExif()
    ensures IsExifDateTime("2021:05:01 10:00:00")
  {
  }

  lemma ExampleGroups()
    ensures var t := "2021:05:01 10:00:00";
      t[0..4] + t[5..7] + t[8..10] + "_" + t[11..13] + t[14..16] + t[17..19] == "20210501_100000"
  {
    var t := "2021:05:01 10:00:00";
    assert t[0..4] == "2021" && t[5..7] == "05" && t[8..10] == "01";
    assert t[11..13] == "10" && t[14..16] == "00" && t[17..19] == "00";
  }
}

=== FILE: decimal.dfy ===
/**
  Decimal digit strings: Python's `str(n)` for the collision counter, and the numeric value of a
  fixed-width zero-padded digit field such as the `YYYY` of a date stamp.
*/
module Decimal {
  import opened Strings

  predicate IsDigit(c: char)
  {
    '0' <= c <= '9'
  }

  predicate AllDigits(s: string)
  {
    forall i :: 0 <= i < |s| ==> IsDigit(s[i])
  }

  /** Digit strings are closed under concatenation. */
  lemma AllDigitsAppend(a: string, b: string)
    requires AllDigits(a) && AllDigits(b)
    ensures AllDigits(a + b)
  {
    forall i | 0 <= i < |a + b|
      ensures IsDigit((a + b)[i])
    {
      if i >= |a| {
        assert (a + b)[i] == b[i - |a|];
      }
    }
  }

  function DigitValue(c: char): (d: nat)
    requires IsDigit(c)
    ensures d < 10
  {
    c as int - '0' as int
  }

  function DigitChar(d: nat): (c: char)
    requires d < 10
    ensures IsDigit(c) && DigitValue(c) == d
  {
    ('0' as int + d) as char
  }

  function Pow10(k: nat): (p: nat)
    ensures p >= 1
  {
    if k == 0 then 1 else 10 * Pow10(k - 1)
  }

  /** The value of a digit string read in base ten; leading zeros are allowed. */
  function Num(s: string): (v: nat)
    requires AllDigits(s)
    decreases |s|
  {
    if |s| == 0 then 0 else 10 * Num(s[..|s| - 1]) + DigitValue(s[|s| - 1])
  }

  /** A `k`-digit field is worth less than `10^k`. */
  lemma {:induction false} NumBound(s: string)
    requires AllDigits(s)
    ensures Num(s) < Pow10(|s|)
    decreases |s|
  {
    if |s| > 0 {
      NumBound(s[..|s| - 1]);
    }
  }

  /** Reading the leading digit off first: `Num(d ++ t) == d * 10^|t| + Num(t)`. */
  lemma {:induction false} NumHead(s: string)
    requires AllDigits(s) && |s| > 0
    ensures Num(s) == DigitValue(s[0]) * Pow10(|s| - 1) + Num(s[1..])
    decreases |s|
  {
    if |s| > 1 {
      var init, t := s[..|s| - 1], s[1..];
      var d0, dl := DigitValue(s[0]), DigitValue(s[|s| - 1]);
      var p := Pow10(|s| - 2);
      NumHead(init);
      assert init[1..] == t[..|t| - 1];
      assert init[0] == s[0] && t[|t| - 1] == s[|s| - 1];
      assert Num(t) == 10 * Num(init[1..]) + dl;
      assert Pow10(|s| - 1) == 10 * p;
      ShiftDigit(d0, p, Num(init[1..]), dl);
    } else {
      assert s[1..] == "";
      assert s[..0] == "";
    }
  }

  /** Appending a digit multiplies the leading digit's weight by ten. */
  lemma ShiftDigit(d: nat, p: nat, r: nat, last: nat)
    ensures 10 * (d * p + r) + last == d * (10 * p) + (10 * r + last)
  {
  }

  /**
    Among equal-width digit fields, string order is numeric order: this is why zero padding
    makes the string minimum the numeric minimum.
  */
  lemma {:induction false} LessIsNumericLess(a: string, b: string)
    requires AllDigits(a) && AllDigits(b) && |a| == |b|
    ensures Less(a, b) <==> Num(a) < Num(b)
    decreases |a|
  {
    if |a| > 0 {
      if a[0] < b[0] {
        LeadingDigitDecides(a, b);
      } else if b[0] < a[0] {
        LeadingDigitDecides(b, a);
      } else {
        SameLeadingDigit(a, b);
        LessIsNumericLess(a[1..], b[1..]);
      }
    }
  }

  /** A smaller leading digit makes the smaller number, whatever follows. */
  lemma LeadingDigitDecides(a: string, b: string)
    requires AllDigits(a) && AllDigits(b) && |a| == |b| > 0 && a[0] < b[0]
    ensures Num(a) < Num(b)
  {
    var p := Pow10(|a| - 1);
    NumHead(a);
    NumHead(b);
    NumBound(a[1..]);
    MulStep(DigitValue(a[0]), DigitValue(b[0]), p);
  }

  /** Behind an equal leading digit, the rest decides. */
  lemma SameLeadingDigit(a: string, b: string)
    requires AllDigits(a) && AllDigits(b) && |a| == |b| > 0 && a[0] == b[0]
    ensures Num(a) < Num(b) <==> Num(a[1..]) < Num(b[1..])
  {
    NumHead(a);
    NumHead(b);
  }

  /** One more unit of the leading digit outweighs any remainder below it. */
  lemma MulStep(x: nat, y: nat, p: nat)
    requires x < y
    ensures x * p + p <= y * p
  {
    assert x * p + p == (x + 1) * p;
    assert (x + 1) * p <= y * p;
  }

  /** Equal-width digit fields with the same value are the same string. */
  lemma {:induction false} NumInjective(a: string, b: string)
    requires AllDigits(a) && AllDigits(b) && |a| == |b|
    requires Num(a) == Num(b)
    ensures a == b
    decreases |a|
  {
    if |a| > 0 {
      var ia, ib := a[..|a| - 1], b[..|b| - 1];
      assert Num(ia) == Num(ib) by {
        var la, lb := DigitValue(a[|a| - 1]), DigitValue(b[|b| - 1]);
        assert 10 * Num(ia) + la == 10 * Num(ib) + lb;
      }
      NumInjective(ia, ib);
      assert a == ia + [a[|a| - 1]] && b == ib + [b[|b| - 1]];
    }
  }

  /** Python's `str(n)` for a natural number: decimal digits, no leading zero. */
  function NatToString(n: nat): (s: string)
    ensures |s| > 0 && AllDigits(s)
    ensures s[0] != '0' || n == 0
    decreases n
  {
    if n < 10 then [DigitChar(n)] else NatToString(n / 10) + [DigitChar(n % 10)]
  }

  /** Reading back what `str(n)` printed gives `n`. */
  lemma {:induction false} NumNatToString(n: nat)
    ensures Num(NatToString(n)) == n
    decreases n
  {
    var s := NatToString(n);
    if n >= 10 {
      NumNatToString(n / 10);
      assert s[..|s| - 1] == NatToString(n / 10);
    }
  }

  /** A digit string as `str` prints a number: non-empty, and no leading zero unless it is `0`. */
  predicate IsCanonical(s: string)
  {
    |s| > 0 && AllDigits(s) && (s[0] != '0' || |s| == 1)
  }

  /** A digit string without a leading zero is worth at least `10^(k-1)`, so at least one. */
  lemma LeadingDigitNonZero(s: string)
    requires AllDigits(s) && |s| > 0 && s[0] != '0'
    ensures Num(s) >= Pow10(|s| - 1) >= 1
  {
    NumHead(s);
  }

  /** `str` prints exactly the canonical digit strings: printing what was read gives it back. */
  lemma {:induction false} NatToStringNum(s: string)
    requires IsCanonical(s)
    ensures NatToString(Num(s)) == s
    decreases |s|
  {
    if |s| > 1 {
      var init := s[..|s| - 1];
      assert init[0] == s[0];
      NatToStringNum(init);
      LeadingDigitNonZero(init);
      var last := DigitValue(s[|s| - 1]);
      assert Num(s) / 10 == Num(init) && Num(s) % 10 == last;
      assert DigitChar(last) == s[|s| - 1];
      assert s == init + [s[|s| - 1]];
    } else {
      assert DigitChar(DigitValue(s[0])) == s[0];
    }
  }

  /** Distinct counters print as distinct strings. */
  lemma NatToStringInjective(m: nat, n: nat)
    requires NatToString(m) == NatToString(n)
    ensures m == n
  {
    NumNatToString(m);
    NumNatToString(n);
  }
}

=== FILE: filesystem.dfy ===
/**
  The disk as the renamer and the sorter see it, reduced to sets of full path strings, and the
  two calls they make on it: `os.rename` and `os.mkdir`. The Windows error text the program
  matches on is reduced to a closed set of error categories.
*/
module FileSystem {
  import opened Wrappers

  /**
    How a rename fails. `AlreadyExists`: the message contains 'file already exists';
    `PathNotFound`: it contains 'cannot find the path' (a missing destination directory);
    `OtherError`: anything else, including a missing source, whose message reads 'cannot find
    the file' and so matches neither phrase.
  */
  datatype FsError = AlreadyExists | PathNotFound | OtherError

  /**
    A snapshot of the disk: the files and directories that exist, by full path, and the files
    the system refuses to move (in use by another process, access denied).
  */
  datatype Fs = Fs(files: set<string>, dirs: set<string>, locked: set<string>)

  /**
    `os.rename(src, dst)` on Windows, where `dstDir` is the directory `dst` was joined from.
    A source that is missing or locked fails first, then a missing destination directory,
    then an existing destination, file or directory alike (Windows never replaces an existing
    path on rename).
  */
  function Rename(fs: Fs, src: string, dst: string, dstDir: string): (r: Result<Fs, FsError>)
    ensures r.Success? <==>
      src in fs.files && src !in fs.locked && dstDir in fs.dirs && dst !in Occupied(fs)
    ensures r.Success? ==>
      && r.value.files == fs.files - {src} + {dst}
      && r.value.dirs == fs.dirs
      && r.value.locked == fs.locked
    ensures r == Failure(AlreadyExists) <==>
      src in fs.files && src !in fs.locked && dstDir in fs.dirs && dst in Occupied(fs)
    ensures r == Failure(PathNotFound) <==>
      src in fs.files && src !in fs.locked && dstDir !in fs.dirs
  {
    if src !in fs.files || src in fs.locked then Failure(OtherError)
    else if dstDir !in fs.dirs then Failure(PathNotFound)
    else if dst in fs.files || dst in fs.dirs then Failure(AlreadyExists)
    else Success(fs.(files := fs.files - {src} + {dst}))
  }

  /** Every path that exists on the disk: a file or a directory. A rename can land on none of them. */
  function Occupied(fs: Fs): set<string>
  {
    fs.files + fs.dirs
  }

  /** A directory blocks a rename target as a file does: the rename reports 'already exists'. */
  lemma RenameOntoDirectoryRefused(fs: Fs, src: string, dst: string, dstDir: string)
    requires src in fs.files && src !in fs.locked && dstDir in fs.dirs && dst in fs.dirs
    ensures Rename(fs, src, dst, dstDir) == Failure(AlreadyExists)
  {
  }

  /** `os.mkdir(d)`: the directory exists afterwards; files are untouched. */
  function Mkdir(fs: Fs, d: string): (r: Fs)
    ensures r.dirs == fs.dirs + {d}
    ensures r.files == fs.files && r.locked == fs.locked
  {
    fs.(dirs := fs.dirs + {d})
  }

  /** Replacing a present name by an absent one neither loses nor duplicates a file. */
  lemma ReplaceKeepsCount(files: set<string>, from: string, to: string)
    requires from in files && to !in files
    ensures |files - {from} + {to}| == |files|
  {
    var rest := files - {from};
    assert files == rest + {from};
    assert |rest| == |files| - 1;
  }

  /** A successful rename neither loses nor duplicates a file: the number of files is unchanged. */
  lemma RenameKeepsFileCount(fs: Fs, src: string, dst: string, dstDir: string)
    requires Rename(fs, src, dst, dstDir).Success?
    ensures |Rename(fs, src, dst, dstDir).value.files| == |fs.files|
  {
    ReplaceKeepsCount(fs.files, src, dst);
  }

  /**
    A successful rename can be undone: renaming the file back into the directory it came from
    restores the disk exactly.
  */
  lemma RenameUndo(fs: Fs, src: string, dst: string, dstDir: string, srcDir: string)
    requires Rename(fs, src, dst, dstDir).Success?
    requires srcDir in fs.dirs && dst !in fs.locked && fs.files !! fs.dirs
    ensures Rename(Rename(fs, src, dst, dstDir).value, dst, src, srcDir) == Success(fs)
  {
    var moved := Rename(fs, src, dst, dstDir).value;
    assert src != dst;
    assert moved.files - {dst} + {src} == fs.files;
  }

  /**
    Once `os.mkdir(d)` has run, a rename into `d` can no longer fail with 'cannot find the
    path': the retry that follows the mkdir either succeeds or fails for another reason.
  */
  lemma MkdirClearsPathNotFound(fs: Fs, src: string, dst: string, d: string)
    ensures Rename(Mkdir(fs, d), src, dst, d) != Failure(PathNotFound)
  {
  }
}

=== FILE: paths.dfy ===
/**
  Windows path text as the file manager builds and splits it: `os.path.splitext` and
  `os.path.join` (the `ntpath` flavour, separators `\` and `/`), and the literal `'\\'.join`
  the sorter uses.
*/
module Paths {

  const Sep: char := '\\'
  const AltSep: char := '/'
  const ExtSep: char := '.'

  predicate IsSep(c: char)
  {
    c == Sep || c == AltSep
  }

  /**
    A character Windows refuses in a file name: a path separator, one of `< > : " | ? *`, or a
    control character.
  */
  predicate IsReserved(c: char)
  {
    IsSep(c) || c in "<>:\"|?*" || c < ' '
  }

  /** A name that can be one component of a Windows path. */
  predicate IsPlainName(s: string)
  {
    forall i :: 0 <= i < |s| ==> !IsReserved(s[i])
  }

  /** Python's `p.rfind(c)`: the last index holding `c`, or -1. */
  function RFind(p: string, c: char): (i: int)
    ensures -1 <= i < |p|
    ensures i >= 0 ==> p[i] == c
    ensures forall k :: i < k < |p| ==> p[k] != c
    decreases |p|
  {
    if |p| == 0 then -1
    else if p[|p| - 1] == c then |p| - 1
    else RFind(p[..|p| - 1], c)
  }

  /** The index of the last path separator of either kind, or -1. */
  function LastSep(p: string): (i: int)
    ensures -1 <= i < |p|
    ensures i >= 0 ==> IsSep(p[i])
    ensures forall k :: i < k < |p| ==> !IsSep(p[k])
  {
    var a, b := RFind(p, Sep), RFind(p, AltSep);
    if a < b then b else a
  }

  /**
    The base name (after the last separator) has a dot that is preceded, within the base name,
    by some character other than a dot.
  */
  predicate HasExtension(p: string)
  {
    exists j, i :: 0 <= j < i < |p| && p[j] != ExtSep && p[i] == ExtSep &&
      forall k :: j <= k < |p| ==> !IsSep(p[k])
  }

  /**
    `os.path.splitext(p)`: split at the last dot of the base name, unless everything before that
    dot in the base name is dots, in which case there is no extension.
  */
  function SplitExt(p: string): (r: (string, string))
    ensures r.0 + r.1 == p
    ensures r.1 != "" <==> HasExtension(p)
    ensures r.1 != "" ==> r.1[0] == ExtSep && ExtSep !in r.1[1..]
    ensures forall k :: 0 <= k < |r.1| ==> !IsSep(r.1[k])
  {
    var sepIndex := LastSep(p);
    var dotIndex := RFind(p, ExtSep);
    if dotIndex > sepIndex && exists k :: sepIndex < k < dotIndex && p[k] != ExtSep then
      assert p[dotIndex..][1..] == p[dotIndex + 1..];
      (p[..dotIndex], p[dotIndex..])
    else
      assert p + "" == p;
      (p, "")
  }

  /** The extension alone: `get_file_extension`. */
  function Ext(p: string): (e: string)
  {
    SplitExt(p).1
  }

  /** Everything before the extension. */
  function Root(p: string): (r: string)
  {
    SplitExt(p).0
  }

  /**
    Appending an extension to a stem whose last character is neither a dot nor a separator
    makes that extension the one `splitext` finds again.
  */
  lemma SplitExtAppend(stem: string, e: string)
    requires |stem| > 0 && stem[|stem| - 1] != ExtSep && !IsSep(stem[|stem| - 1])
    requires |e| > 0 && e[0] == ExtSep && ExtSep !in e[1..]
    requires forall k :: 0 <= k < |e| ==> !IsSep(e[k])
    ensures SplitExt(stem + e) == (stem, e)
  {
    var p := stem + e;
    var n := |stem|;
    assert p[..n] == stem && p[n..] == e;
    assert forall k :: n < k < |p| ==> p[k] == e[1..][k - n - 1];
    assert forall k :: n <= k < |p| ==> p[k] == e[k - n];
    assert HasExtension(p) by {
      assert p[n - 1] != ExtSep && p[n] == ExtSep;
    }
    assert RFind(p, ExtSep) == n;
  }

  /** A name splits at its last dot: only that dot starts the extension. */
  lemma SplitExtExamples()
    ensures SplitExt("IMG_0001.JPG") == ("IMG_0001", ".JPG")
    ensures SplitExt("archive.tar.gz") == ("archive.tar", ".gz")
  {
    SplitExtAppend("IMG_0001", ".JPG");
    assert "IMG_0001" + ".JPG" == "IMG_0001.JPG";
    SplitExtAppend("archive.tar", ".gz");
    assert "archive.tar" + ".gz" == "archive.tar.gz";
  }

  /** Leading dots of a base name never start an extension. */
  lemma SplitExtLeadingDotsExample()
    ensures SplitExt(".hidden") == (".hidden", "")
    ensures SplitExt("..jpg") == ("..jpg", "")
  {
  }

  /** A bare drive such as `C:`, after which `ntpath.join` adds no separator. */
  predicate IsBareDrive(d: string)
  {
    |d| == 2 && d[1] == ':'
  }

  /**
    `os.path.join(dir, name)` for a relative `name`: a separator is inserted unless `dir` is
    empty, already ends in a separator, or is a bare drive.
  */
  function Join(dir: string, name: string): (p: string)
    ensures p == dir + name || p == dir + [Sep] + name
    ensures p == dir + [Sep] + name <==> dir != "" && !IsSep(dir[|dir| - 1]) && !IsBareDrive(dir)
  {
    if dir == "" || IsSep(dir[|dir| - 1]) || IsBareDrive(dir) then dir + name else dir + [Sep] + name
  }

  /** Within one directory, distinct names join to distinct paths. */
  lemma JoinInjective(dir: string, a: string, b: string)
    requires Join(dir, a) == Join(dir, b)
    ensures a == b
  {
    var pa, pb := Join(dir, a), Join(dir, b);
    var k := |pa| - |a|;
    assert a == pa[k..] && b == pb[k..];
  }

  /** Python's `'\\'.join([a, b])`: the literal backslash join the sorter uses. */
  function BackslashJoin(a: string, b: string): (p: string)
    ensures |p| == |a| + 1 + |b|
    ensures p[..|a|] == a && p[|a|] == Sep && p[|a| + 1..] == b
  {
    a + [Sep] + b
  }

  /** Under one directory, distinct names join to distinct paths. */
  lemma BackslashJoinInjective(dir: string, a: string, b: string)
    requires BackslashJoin(dir, a) == BackslashJoin(dir, b)
    ensures a == b
  {
    var p := BackslashJoin(dir, a);
    assert a == p[|dir| + 1..];
  }
}

=== FILE: pictures.dfy ===
/**
  `PictureRenamer.rename_file` and `PictureSorter.move_file`: the two collision-avoidance loops
  that try `name + ext`, then `name + "_1" + ext`, `name + "_2" + ext`, ... until one is free.
*/
module Pictures {
  import opened Wrappers
  import opened Decimal
  import opened Paths
  import opened FileSystem
  import opened Reports

  /** The extensions both picture tools accept, in lower case. */
  const MediaExtensions: seq<string> :=
    [".jpg", ".jpeg", ".png", ".mp4", ".bmp", ".3g2", ".avi", ".3gp", ".mov", ".wmv"]

  // ---------------------------------------------------------------------------
  // Collision candidates
  // ---------------------------------------------------------------------------

  /** The `n`-th name tried: `stem + ext` first, then `stem + "_" + str(n) + ext`. */
  function Candidate(stem: string, ext: string, n: nat): (c: string)
    ensures |c| >= |stem| + |ext|
    ensures c[..|stem|] == stem && c[|c| - |ext|..] == ext
    ensures n == 0 <==> |c| == |stem| + |ext|
  {
    if n == 0 then stem + ext else stem + "_" + NatToString(n) + ext
  }

  /** Distinct counters give distinct candidates, so no name is tried twice. */
  lemma CandidateInjective(stem: string, ext: string, m: nat, n: nat)
    requires Candidate(stem, ext, m) == Candidate(stem, ext, n)
    ensures m == n
  {
    if m > 0 && n > 0 {
      var c := Candidate(stem, ext, m);
      var lo := |stem| + 1;
      assert |NatToString(m)| == |NatToString(n)|;
      var hi := lo + |NatToString(m)|;
      assert NatToString(m) == c[lo..hi];
      assert NatToString(n) == Candidate(stem, ext, n)[lo..hi];
      NatToStringInjective(m, n);
    }
  }

  /**
    A numbered candidate keeps the extension it was built with: `splitext` finds `ext` again,
    because the character before it is a digit of the counter (or, for the plain candidate, the
    stem's own last character).
  */
  lemma CandidateKeepsExtension(stem: string, ext: string, n: nat)
    requires n > 0 || (|stem| > 0 && stem[|stem| - 1] != ExtSep && !IsSep(stem[|stem| - 1]))
    requires |ext| > 0 && ext[0] == ExtSep && ExtSep !in ext[1..]
    requires forall k :: 0 <= k < |ext| ==> !IsSep(ext[k])
    ensures Ext(Candidate(stem, ext, n)) == ext
    ensures Root(Candidate(stem, ext, n)) == if n == 0 then stem else stem + "_" + NatToString(n)
  {
    var numbered := if n == 0 then stem else stem + "_" + NatToString(n);
    if n > 0 {
      var digits := NatToString(n);
      assert numbered[|numbered| - 1] == digits[|digits| - 1];
      assert IsDigit(digits[|digits| - 1]);
    }
    assert Candidate(stem, ext, n) == numbered + ext;
    SplitExtAppend(numbered, ext);
  }

  /**
    The counter whose candidate is `file` itself, if any: `file` is `stem + ext`, or
    `stem + "_" + d + ext` for a digit string `d` that `str` prints for a positive counter.
  */
  function OwnCounter(file: string, stem: string, ext: string): (r: Option<nat>)
    ensures r.Some? ==> Candidate(stem, ext, r.value) == file
  {
    if file == stem + ext then Some(0)
    else if |file| > |stem| + 1 + |ext| && file[..|stem|] == stem && file[|stem|] == '_'
            && file[|file| - |ext|..] == ext && IsCanonical(file[|stem| + 1..|file| - |ext|])
            && file[|stem| + 1] != '0'
    then
      var d := file[|stem| + 1..|file| - |ext|];
      NumberedCandidate(file, stem, ext, d);
      Some(Num(d))
    else None
  }

  lemma NumberedCandidate(file: string, stem: string, ext: string, d: string)
    requires |file| > |stem| + 1 + |ext| && file[..|stem|] == stem && file[|stem|] == '_'
    requires file[|file| - |ext|..] == ext && d == file[|stem| + 1..|file| - |ext|]
    requires IsCanonical(d) && d[0] != '0'
    ensures Num(d) > 0 && Candidate(stem, ext, Num(d)) == file
  {
    NatToStringNum(d);
    LeadingDigitNonZero(d);
    assert file == stem + "_" + d + ext;
  }

  /** Every candidate that is the file itself is found by `OwnCounter`. */
  lemma OwnCounterComplete(file: string, stem: string, ext: string, n: nat)
    requires Candidate(stem, ext, n) == file
    ensures OwnCounter(file, stem, ext) == Some(n)
  {
    if n > 0 {
      var d := NatToString(n);
      assert file == stem + "_" + d + ext;
      assert file[|stem| + 1..|file| - |ext|] == d;
      NumNatToString(n);
    }
  }

  /** `x_12.jpg` is the twelfth numbered candidate of `x`; `x_0.jpg` and `x_012.jpg` are never tried. */
  lemma OwnCounterExample()
    ensures OwnCounter("x_12.jpg", "x", ".jpg") == Some(12)
    ensures OwnCounter("x_0.jpg", "x", ".jpg") == None
    ensures OwnCounter("x_012.jpg", "x", ".jpg") == None
  {
    assert "x_12.jpg"[2..4] == "12";
    assert Num("12") == 12 by {
      assert "12"[..1] == "1";
      assert "1"[..0] == "";
    }
  }

  /** The candidates with counters below `n`. */
  ghost function Tried(stem: string, ext: string, n: nat): set<string>
  {
    set k | 0 <= k < n :: Candidate(stem, ext, k)
  }

  lemma TriedNext(stem: string, ext: string, n: nat)
    ensures Tried(stem, ext, n + 1) == Tried(stem, ext, n) + {Candidate(stem, ext, n)}
    ensures Candidate(stem, ext, n) !in Tried(stem, ext, n)
  {
    if Candidate(stem, ext, n) in Tried(stem, ext, n) {
      var k :| 0 <= k < n && Candidate(stem, ext, k) == Candidate(stem, ext, n);
      CandidateInjective(stem, ext, k, n);
    }
  }

  /**
    Every candidate below `n` was taken by some other file: the loop went past each of them
    because the rename reported that the target already exists.
  */
  predicate Collided(files: set<string>, file: string, stem: string, ext: string, n: nat)
  {
    forall j :: 0 <= j < n ==> Candidate(stem, ext, j) in files && Candidate(stem, ext, j) != file
  }

  /** The rename loop stops at counter `n`: all earlier candidates collided and this one is free or is the file itself. */
  predicate StopsAt(files: set<string>, file: string, stem: string, ext: string, n: nat)
  {
    Collided(files, file, stem, ext, n) &&
    (Candidate(stem, ext, n) == file || Candidate(stem, ext, n) !in files)
  }

  /** The counter a search stops at is unique: it is the first candidate that is free or the file itself. */
  lemma StopsAtUnique(files: set<string>, file: string, stem: string, ext: string, m: nat, n: nat)
    requires StopsAt(files, file, stem, ext, m) && StopsAt(files, file, stem, ext, n)
    ensures m == n
  {
  }

  // ---------------------------------------------------------------------------
  // PictureRenamer.rename_file
  // ---------------------------------------------------------------------------

  /** A rename of `file` to a free name in `dir` can succeed: the file is there, not locked, and `dir` exists. */
  predicate Movable(fs: Fs, dir: string, file: string)
  {
    dir in fs.dirs && file in fs.files && file !in fs.locked
  }

  /**
    `rename_file(file_name, new_name, ext)` where `file` and `newName` are full paths and `dir`
    is the directory every candidate lies in. Before each attempt the candidate is compared with
    the current name; on any `WindowsError` the counter goes up by one. A file that cannot be
    moved therefore leaves the loop only at one of its own candidate names.
  */
  method RenameFile(fs: Fs, dir: string, file: string, newName: string, ext: string)
    returns (outcome: RenameOutcome, fs': Fs, n: nat)
    requires Movable(fs, dir, file) || OwnCounter(file, newName, ext).Some?
    ensures Movable(fs, dir, file) ==> StopsAt(Occupied(fs), file, newName, ext, n)
    ensures !Movable(fs, dir, file) ==> outcome.SameName? && OwnCounter(file, newName, ext) == Some(n)
    ensures outcome.SameName? <==> Candidate(newName, ext, n) == file
    ensures outcome.SameName? ==> outcome == SameName(file) && fs' == fs
    ensures outcome.Renamed? ==> outcome == Renamed(file, Candidate(newName, ext, n))
    ensures outcome.Renamed? || outcome.SameName?
    ensures outcome.Renamed? ==>
      && fs'.files == fs.files - {file} + {Candidate(newName, ext, n)}
      && fs'.dirs == fs.dirs
      && fs'.locked == fs.locked
  {
    var candidate := newName + ext;
    n := 0;
    ghost var movable := Movable(fs, dir, file);
    ghost var own := OwnCounter(file, newName, ext);
    ghost var tried: set<string> := {};
    while true
      invariant candidate == Candidate(newName, ext, n)
      invariant movable ==> Collided(Occupied(fs), file, newName, ext, n)
      invariant movable ==> tried == Tried(newName, ext, n) && tried <= Occupied(fs)
      invariant !movable ==> own.Some? && n <= own.value
      decreases if movable then Occupied(fs) - tried else {}, if movable then 0 else own.value - n
    {
      if candidate == file {
        if !movable {
          CandidateInjective(newName, ext, n, own.value);
        }
        return SameName(file), fs, n;
      }
      var attempt := Rename(fs, file, candidate, dir);
      if attempt.Success? {
        return Renamed(file, candidate), attempt.value, n;
      }
      if movable {
        TriedNext(newName, ext, n);
        tried := tried + {candidate};
      }
      n := n + 1;
      candidate := newName + "_" + NatToString(n) + ext;
    }
  }

  /**
    After a rename to the `n`-th candidate, running the same search again for the renamed file
    stops at that same counter, on the file's own name: a second run skips it.
  */
  lemma RerunStopsAtOwnName(files: set<string>, file: string, stem: string, ext: string, n: nat, m: nat)
    requires file in files && StopsAt(files, file, stem, ext, n)
    requires StopsAt(files - {file} + {Candidate(stem, ext, n)}, Candidate(stem, ext, n), stem, ext, m)
    ensures m == n
    ensures Candidate(stem, ext, m) == Candidate(stem, ext, n)
  {
    var renamed := Candidate(stem, ext, n);
    var files' := files - {file} + {renamed};
    assert Collided(files', renamed, stem, ext, n) by {
      forall j | 0 <= j < n
        ensures Candidate(stem, ext, j) in files' && Candidate(stem, ext, j) != renamed
      {
      }
    }
    StopsAtUnique(files', renamed, stem, ext, m, n);
  }

  /**
    The repeat search is stable only on the disk the file's own rename left. Once a file it
    collided with has moved away, a second run renames it again: `a.jpg` and `X.jpg` both want
    the name `X`, so `a.jpg` becomes `X_1.jpg`; after `X.jpg` itself has become `Y.jpg`, a
    second run stops at the free `X.jpg` and renames `X_1.jpg` once more.
  */
  lemma SecondRunCanRenameAgain()
    ensures StopsAt({"d\\a.jpg", "d\\X.jpg"}, "d\\a.jpg", "d\\X", ".jpg", 1)
    ensures Candidate("d\\X", ".jpg", 1) == "d\\X_1.jpg"
    ensures StopsAt({"d\\X_1.jpg", "d\\Y.jpg"}, "d\\X_1.jpg", "d\\X", ".jpg", 0)
    ensures Candidate("d\\X", ".jpg", 0) != "d\\X_1.jpg"
  {
    assert NatToString(1) == "1";
    assert Candidate("d\\X", ".jpg", 0) == "d\\X.jpg";
    assert Candidate("d\\X", ".jpg", 1) == "d\\X_1.jpg";
    assert Collided({"d\\a.jpg", "d\\X.jpg"}, "d\\a.jpg", "d\\X", ".jpg", 1) by {
      forall j | 0 <= j < 1
        ensures Candidate("d\\X", ".jpg", j) == "d\\X.jpg"
      {
      }
    }
  }

  // ---------------------------------------------------------------------------
  // PictureSorter.move_file
  // ---------------------------------------------------------------------------

  /** `file_name[0:4]`: the first four characters, or the whole name when it is shorter. */
  function SortKey(name: string): (key: string)
    ensures |key| == if |name| < 4 then |name| else 4
    ensures key == name[..|key|]
  {
    if |name| <= 4 then name else name[..4]
  }

  lemma SortKeyExample()
    ensures SortKey("20230115_103000.jpg") == "2023"
    ensures SortKey("a.b") == "a.b"
  {
  }

  /** The directory a file is sorted into: `base_path + "\" + key`. */
  function SortDir(basePath: string, name: string): string
  {
    BackslashJoin(basePath, SortKey(name))
  }

  /** The `n`-th path tried inside `dir`: the `n`-th candidate, backslash-joined to the directory. */
  function Target(dir: string, stem: string, ext: string, n: nat): string
  {
    BackslashJoin(dir, Candidate(stem, ext, n))
  }

  /** The targets below counter `n`. */
  ghost function TriedTargets(dir: string, stem: string, ext: string, n: nat): set<string>
  {
    set k | 0 <= k < n :: Target(dir, stem, ext, k)
  }

  lemma TriedTargetsNext(dir: string, stem: string, ext: string, n: nat)
    ensures TriedTargets(dir, stem, ext, n + 1) == TriedTargets(dir, stem, ext, n) + {Target(dir, stem, ext, n)}
    ensures Target(dir, stem, ext, n) !in TriedTargets(dir, stem, ext, n)
  {
    if Target(dir, stem, ext, n) in TriedTargets(dir, stem, ext, n) {
      var k :| 0 <= k < n && Target(dir, stem, ext, k) == Target(dir, stem, ext, n);
      BackslashJoinInjective(dir, Candidate(stem, ext, k), Candidate(stem, ext, n));
      CandidateInjective(stem, ext, k, n);
    }
  }

  lemma TriedTargetsMembers(dir: string, stem: string, ext: string, n: nat)
    ensures forall j :: 0 <= j < n ==> Target(dir, stem, ext, j) in TriedTargets(dir, stem, ext, n)
  {
  }

  /** The `n`-th destination tried for `name`: the `n`-th candidate built from `splitext(name)`, inside the sort directory. */
  function Destination(basePath: string, name: string, n: nat): string
  {
    Target(SortDir(basePath, name), Root(name), Ext(name), n)
  }

  /**
    The retry loop of `move_file`: rename `src` to the `n`-th target inside `dir`, counting up
    on 'already exists' and creating `dir` on 'cannot find the path'. Any other error ends the
    loop with `None`.
  */
  method MoveInto(fs: Fs, src: string, dir: string, root: string, ext: string)
    returns (moved: Option<Fs>, n: nat)
    ensures moved.None? <==> src !in fs.files || src in fs.locked
    ensures moved.None? ==> n == 0
    ensures moved.Some? ==>
      && (forall j :: 0 <= j < n ==> Target(dir, root, ext, j) in Occupied(fs))
      && Target(dir, root, ext, n) !in Occupied(fs)
      && moved.value.files == fs.files - {src} + {Target(dir, root, ext, n)}
      && moved.value.dirs == fs.dirs + {dir}
      && moved.value.locked == fs.locked
  {
    var newPath := BackslashJoin(dir, root + ext);
    var current := fs;
    n := 0;
    ghost var tried: set<string> := {};
    while true
      invariant newPath == Target(dir, root, ext, n)
      invariant current.files == fs.files && current.locked == fs.locked
      invariant current.dirs == fs.dirs || current.dirs == fs.dirs + {dir}
      invariant src !in fs.files || src in fs.locked ==> n == 0
      invariant n > 0 ==> dir in current.dirs
      invariant tried == TriedTargets(dir, root, ext, n) && tried <= Occupied(fs)
      decreases if dir in current.dirs then 0 else 1, Occupied(fs) - tried
    {
      var attempt := Rename(current, src, newPath, dir);
      if attempt.Success? {
        TriedTargetsMembers(dir, root, ext, n);
        assert dir in current.dirs;
        return Some(attempt.value), n;
      } else if attempt.error == AlreadyExists {
        TriedTargetsNext(dir, root, ext, n);
        tried := tried + {newPath};
        n := n + 1;
        newPath := BackslashJoin(dir, root + "_" + NatToString(n) + ext);
      } else if attempt.error == PathNotFound {
        current := Mkdir(current, dir);
      } else {
        return None, n;
      }
    }
  }

  /**
    `move_file(file_name)`: move `input_path\file_name` into `base_path\key\`, trying the
    file's own name first and then numbered variants of it.
  */
  method MoveFile(fs: Fs, inputPath: string, basePath: string, name: string)
    returns (outcome: MoveOutcome, fs': Fs, n: nat)
    ensures var src := BackslashJoin(inputPath, name);
      outcome.MoveFailed? <==> src !in fs.files || src in fs.locked
    ensures outcome.MoveFailed? ==> outcome == MoveFailed(name) && fs' == fs && n == 0
    ensures outcome.Moved? || outcome.MoveFailed?
    ensures outcome.Moved? ==>
      var src, dst := BackslashJoin(inputPath, name), Destination(basePath, name, n);
      && outcome == Moved(src, dst)
      && (forall j :: 0 <= j < n ==> Destination(basePath, name, j) in Occupied(fs))
      && dst !in Occupied(fs)
      && fs'.files == fs.files - {src} + {dst}
      && fs'.dirs == fs.dirs + {SortDir(basePath, name)}
      && fs'.locked == fs.locked
  {
    var sortKey := SortKey(name);
    var currentPath := BackslashJoin(inputPath, name);
    var dir := BackslashJoin(basePath, sortKey);
    var moved;
    moved, n := MoveInto(fs, currentPath, dir, Root(name), Ext(name));
    if moved.None? {
      return MoveFailed(name), fs, n;
    }
    return Moved(currentPath, BackslashJoin(dir, Candidate(Root(name), Ext(name), n))), moved.value, n;
  }
}

=== FILE: reports.dfy ===
/**
  The outcome buckets of one batch run: `FileRenamer` keeps four lists and `FileSorter` three,
  and every processed file lands in exactly one of them.
*/
module Reports {

  /** What happened to one listed file in a rename run. */
  datatype RenameOutcome =
    | Renamed(from: string, to: string)   // successfully_renamed
    | SameName(file: string)              // skipped_new_name_matches_old
    | NoNewName(file: string)             // failed_to_rename
    | WrongExtension(file: string)        // skipped_different_extension
  {
    /** The full path of the file the outcome is about. */
    function Source(): string
    {
      match this
      case Renamed(from, _) => from
      case SameName(f) => f
      case NoNewName(f) => f
      case WrongExtension(f) => f
    }
  }

  /** The four lists a `FileRenamer` accumulates, holding the text the program appends. */
  datatype RenameReport = RenameReport(
    successfullyRenamed: seq<string>,
    skippedNewNameMatchesOld: seq<string>,
    failedToRename: seq<string>,
    skippedDifferentExtension: seq<string>)
  {
    function Total(): nat
    {
      |successfullyRenamed| + |skippedNewNameMatchesOld| + |failedToRename| + |skippedDifferentExtension|
    }
  }

  /** The entry for a successful rename: `"<from>" renamed "<to>"`. */
  function RenamedEntry(from: string, to: string): string
  {
    "\"" + from + "\" renamed \"" + to + "\""
  }

  /** The failure entry for a file with no derivable name. */
  function NoNewNameEntry(file: string): string
  {
    "Failed to rename " + file + " because no new name could be determined."
  }

  /** Append one outcome to the bucket it belongs to, leaving the other buckets alone. */
  function RecordRename(r: RenameReport, o: RenameOutcome): (r': RenameReport)
    ensures r'.Total() == r.Total() + 1
    ensures o.WrongExtension? <==> r'.skippedDifferentExtension != r.skippedDifferentExtension
    ensures o.NoNewName? <==> r'.failedToRename != r.failedToRename
    ensures o.SameName? <==> r'.skippedNewNameMatchesOld != r.skippedNewNameMatchesOld
    ensures o.Renamed? <==> r'.successfullyRenamed != r.successfullyRenamed
    ensures o.Renamed? ==> r'.successfullyRenamed == r.successfullyRenamed + [RenamedEntry(o.from, o.to)]
    ensures o.SameName? ==> r'.skippedNewNameMatchesOld == r.skippedNewNameMatchesOld + [o.file]
    ensures o.NoNewName? ==> r'.failedToRename == r.failedToRename + [NoNewNameEntry(o.file)]
    ensures o.WrongExtension? ==> r'.skippedDifferentExtension == r.skippedDifferentExtension + [o.file]
  {
    match o
    case Renamed(from, to) => r.(successfullyRenamed := r.successfullyRenamed + [RenamedEntry(from, to)])
    case SameName(f) => r.(skippedNewNameMatchesOld := r.skippedNewNameMatchesOld + [f])
    case NoNewName(f) => r.(failedToRename := r.failedToRename + [NoNewNameEntry(f)])
    case WrongExtension(f) => r.(skippedDifferentExtension := r.skippedDifferentExtension + [f])
  }

  /** The buckets after recording a run's outcomes in order, starting from empty lists. */
  function TallyRenames(os: seq<RenameOutcome>): (r: RenameReport)
    decreases |os|
  {
    if |os| == 0 then RenameReport([], [], [], [])
    else RecordRename(TallyRenames(os[..|os| - 1]), os[|os| - 1])
  }

  /** No file is dropped and none is counted twice: the buckets together hold one entry per outcome. */
  lemma {:induction false} TallyRenamesTotal(os: seq<RenameOutcome>)
    ensures TallyRenames(os).Total() == |os|
    decreases |os|
  {
    if |os| > 0 {
      TallyRenamesTotal(os[..|os| - 1]);
    }
  }

  /** The extension bucket lists exactly the files whose outcome was a wrong extension. */
  lemma {:induction false} TallyRenamesWrongExtension(os: seq<RenameOutcome>, f: string)
    ensures f in TallyRenames(os).skippedDifferentExtension <==> WrongExtension(f) in os
    decreases |os|
  {
    if |os| > 0 {
      var init := os[..|os| - 1];
      TallyRenamesWrongExtension(init, f);
      assert os == init + [os[|os| - 1]];
    }
  }

  /** The same-name bucket lists exactly the files that already carried their derived name. */
  lemma {:induction false} TallyRenamesSameName(os: seq<RenameOutcome>, f: string)
    ensures f in TallyRenames(os).skippedNewNameMatchesOld <==> SameName(f) in os
    decreases |os|
  {
    if |os| > 0 {
      var init := os[..|os| - 1];
      TallyRenamesSameName(init, f);
      assert os == init + [os[|os| - 1]];
    }
  }

  /**
    Every rename is reported. The converse is not promised: the entry text does not determine
    the two paths when a path itself contains the quoted separator.
  */
  lemma {:induction false} TallyRenamesRenamed(os: seq<RenameOutcome>, from: string, to: string)
    requires Renamed(from, to) in os
    ensures RenamedEntry(from, to) in TallyRenames(os).successfullyRenamed
    decreases |os|
  {
    var init := os[..|os| - 1];
    assert os == init + [os[|os| - 1]];
    if Renamed(from, to) in init {
      TallyRenamesRenamed(init, from, to);
    }
  }

  /** The failure bucket holds one message for each file no name could be found for. */
  lemma {:induction false} TallyRenamesNoNewName(os: seq<RenameOutcome>, f: string)
    ensures NoNewNameEntry(f) in TallyRenames(os).failedToRename <==> NoNewName(f) in os
    decreases |os|
  {
    if |os| > 0 {
      var init := os[..|os| - 1];
      TallyRenamesNoNewName(init, f);
      assert os == init + [os[|os| - 1]];
      var last := os[|os| - 1];
      if last.NoNewName? && NoNewNameEntry(last.file) == NoNewNameEntry(f) {
        NoNewNameEntryInjective(last.file, f);
      }
    }
  }

  lemma NoNewNameEntryInjective(a: string, b: string)
    requires NoNewNameEntry(a) == NoNewNameEntry(b)
    ensures a == b
  {
    var prefix := "Failed to rename ";
    var suffix := " because no new name could be determined.";
    var m := NoNewNameEntry(a);
    assert a == m[|prefix|..|m| - |suffix|];
    assert b == m[|prefix|..|m| - |suffix|];
  }

  // ---------------------------------------------------------------------------
  // Sorting
  // ---------------------------------------------------------------------------

  /** What happened to one listed file in a sort run. */
  datatype MoveOutcome =
    | Moved(from: string, to: string)     // successfully_moved
    | MoveFailed(name: string)            // failed_to_move
    | Skipped(name: string)               // skipped_different_extension

  /** The three lists a `FileSorter` accumulates. */
  datatype SortReport = SortReport(
    successfullyMoved: seq<string>,
    failedToMove: seq<string>,
    skippedDifferentExtension: seq<string>)
  {
    function Total(): nat
    {
      |successfullyMoved| + |failedToMove| + |skippedDifferentExtension|
    }
  }

  /** The entry for a successful move: `"<from>" moved to "<to>".` */
  function MovedEntry(from: string, to: string): string
  {
    "\"" + from + "\" moved to \"" + to + "\"."
  }

  /** Append one outcome to the bucket it belongs to, leaving the other buckets alone. */
  function RecordMove(r: SortReport, o: MoveOutcome): (r': SortReport)
    ensures r'.Total() == r.Total() + 1
    ensures o.Skipped? <==> r'.skippedDifferentExtension != r.skippedDifferentExtension
    ensures o.MoveFailed? <==> r'.failedToMove != r.failedToMove
    ensures o.Moved? <==> r'.successfullyMoved != r.successfullyMoved
    ensures o.Moved? ==> r'.successfullyMoved == r.successfullyMoved + [MovedEntry(o.from, o.to)]
    ensures o.MoveFailed? ==> r'.failedToMove == r.failedToMove + [o.name]
    ensures o.Skipped? ==> r'.skippedDifferentExtension == r.skippedDifferentExtension + [o.name]
  {
    match o
    case Moved(from, to) => r.(successfullyMoved := r.successfullyMoved + [MovedEntry(from, to)])
    case MoveFailed(n) => r.(failedToMove := r.failedToMove + [n])
    case Skipped(n) => r.(skippedDifferentExtension := r.skippedDifferentExtension + [n])
  }

  /** The buckets after recording a run's outcomes in order, starting from empty lists. */
  function TallyMoves(os: seq<MoveOutcome>): (r: SortReport)
    decreases |os|
  {
    if |os| == 0 then SortReport([], [], [])
    else RecordMove(TallyMoves(os[..|os| - 1]), os[|os| - 1])
  }

  /** No file is dropped and none is counted twice. */
  lemma {:induction false} TallyMovesTotal(os: seq<MoveOutcome>)
    ensures TallyMoves(os).Total() == |os|
    decreases |os|
  {
    if |os| > 0 {
      TallyMovesTotal(os[..|os| - 1]);
    }
  }

  /** The skipped bucket lists exactly the bare names whose outcome was a skip. */
  lemma {:induction false} TallyMovesSkipped(os: seq<MoveOutcome>, n: string)
    ensures n in TallyMoves(os).skippedDifferentExtension <==> Skipped(n) in os
    decreases |os|
  {
    if |os| > 0 {
      var init := os[..|os| - 1];
      TallyMovesSkipped(init, n);
      assert os == init + [os[|os| - 1]];
    }
  }

  /** The failure bucket lists exactly the bare names whose move failed. */
  lemma {:induction false} TallyMovesFailed(os: seq<MoveOutcome>, n: string)
    ensures n in TallyMoves(os).failedToMove <==> MoveFailed(n) in os
    decreases |os|
  {
    if |os| > 0 {
      var init := os[..|os| - 1];
      TallyMovesFailed(init, n);
      assert os == init + [os[|os| - 1]];
    }
  }
}

=== FILE: strings.dfy ===
/**
  Python string operations the file manager relies on: the ordering `<` on `str` (used by `min`),
  `str.strip()`, `str.replace` for single characters, and `str.lower()` on extensions.
*/
module Strings {

  // ---------------------------------------------------------------------------
  // Lexicographic order (Python's `<` on str)
  // ---------------------------------------------------------------------------

  /** Python's `a < b` on strings: compare code points left to right; a proper prefix is smaller. */
  predicate Less(a: string, b: string)
    decreases |a|
  {
    |b| > 0 && (|a| == 0 || a[0] < b[0] || (a[0] == b[0] && Less(a[1..], b[1..])))
  }

  /** Python's `a <= b` on strings. */
  predicate LessEq(a: string, b: string)
  {
    a == b || Less(a, b)
  }

  lemma {:induction false} LessIrreflexive(a: string)
    ensures !Less(a, a)
    decreases |a|
  {
    if |a| > 0 {
      LessIrreflexive(a[1..]);
    }
  }

  lemma {:induction false} LessAsymmetric(a: string, b: string)
    ensures Less(a, b) ==> !Less(b, a)
    decreases |a|
  {
    if |a| > 0 && |b| > 0 {
      LessAsymmetric(a[1..], b[1..]);
    }
  }

  lemma {:induction false} LessTransitive(a: string, b: string, c: string)
    requires Less(a, b) && Less(b, c)
    ensures Less(a, c)
    decreases |a|
  {
    if |a| > 0 && a[0] == b[0] && b[0] == c[0] {
      LessTransitive(a[1..], b[1..], c[1..]);
    }
  }

  /** Any two distinct strings are ordered one way or the other. */
  lemma {:induction false} LessTotal(a: string, b: string)
    ensures a == b || Less(a, b) || Less(b, a)
    decreases |a|
  {
    if |a| > 0 && |b| > 0 && a[0] == b[0] {
      LessTotal(a[1..], b[1..]);
      if a[1..] == b[1..] {
        assert a == [a[0]] + a[1..] && b == [b[0]] + b[1..];
      }
    }
  }

  lemma LessEqTransitive(a: string, b: string, c: string)
    requires LessEq(a, b) && LessEq(b, c)
    ensures LessEq(a, c)
  {
    if a != b && b != c {
      LessTransitive(a, b, c);
    }
  }

  /**
    Comparing two strings whose first `k` characters can be compared as a block: the prefixes
    decide unless they are equal, in which case the remainders decide.
  */
  lemma {:induction false} LessSplit(a: string, b: string, k: nat)
    requires k <= |a| && k <= |b|
    ensures Less(a, b) <==> Less(a[..k], b[..k]) || (a[..k] == b[..k] && Less(a[k..], b[k..]))
    decreases k
  {
    if k > 0 {
      LessSplit(a[1..], b[1..], k - 1);
      assert a[1..][..k - 1] == a[1..k] && b[1..][..k - 1] == b[1..k];
      assert a[1..][k - 1..] == a[k..] && b[1..][k - 1..] == b[k..];
      assert a[..k][1..] == a[1..k] && b[..k][1..] == b[1..k];
      if a[0] == b[0] && a[1..k] == b[1..k] {
        assert a[..k] == [a[0]] + a[1..k] && b[..k] == [b[0]] + b[1..k];
      }
      if a[..k] == b[..k] {
        assert a[0] == a[..k][0] && b[0] == b[..k][0];
      }
    } else {
      assert a[..0] == b[..0];
      assert a[0..] == a && b[0..] == b;
    }
  }

  // ---------------------------------------------------------------------------
  // Whitespace and `str.strip()`
  // ---------------------------------------------------------------------------

  /** Python's `str.isspace()` for one character: the characters `str.strip()` removes. */
  predicate IsSpace(c: char)
  {
    var n := c as int;
    || (0x09 <= n <= 0x0D)
    || (0x1C <= n <= 0x20)
    || n == 0x85
    || n == 0xA0
    || n == 0x1680
    || (0x2000 <= n <= 0x200A)
    || n == 0x2028
    || n == 0x2029
    || n == 0x202F
    || n == 0x205F
    || n == 0x3000
  }

  /** The number of whitespace characters at the start of `s`. */
  function LeadingSpaces(s: string): (k: nat)
    ensures k <= |s|
    ensures forall i :: 0 <= i < k ==> IsSpace(s[i])
    ensures k < |s| ==> !IsSpace(s[k])
    decreases |s|
  {
    if |s| > 0 && IsSpace(s[0]) then 1 + LeadingSpaces(s[1..]) else 0
  }

  /** The number of whitespace characters at the end of `s`. */
  function TrailingSpaces(s: string): (k: nat)
    ensures k <= |s|
    ensures forall i :: |s| - k <= i < |s| ==> IsSpace(s[i])
    ensures k < |s| ==> !IsSpace(s[|s| - k - 1])
    decreases |s|
  {
    if |s| > 0 && IsSpace(s[|s| - 1]) then 1 + TrailingSpaces(s[..|s| - 1]) else 0
  }

  /**
    Python's `s.strip()`: the slice `s[lo..hi]` that remains once leading and trailing whitespace
    is cut; everything cut is whitespace, and the remainder neither starts nor ends with it.
  */
  function Strip(s: string): (r: string)
    ensures exists lo: nat, hi: nat {:trigger s[lo..hi]} ::
      && lo <= hi <= |s|
      && r == s[lo..hi]
      && (forall i :: 0 <= i < lo ==> IsSpace(s[i]))
      && (forall i :: hi <= i < |s| ==> IsSpace(s[i]))
    ensures |r| > 0 ==> !IsSpace(r[0]) && !IsSpace(r[|r| - 1])
  {
    var lo := LeadingSpaces(s);
    var hi := |s| - TrailingSpaces(s[lo..]);
    assert forall i :: hi <= i < |s| ==> s[i] == s[lo..][i - lo];
    s[lo..hi]
  }

  /** A string with no whitespace at either end is its own `strip()`. */
  lemma StripUnpadded(s: string)
    requires |s| > 0 && !IsSpace(s[0]) && !IsSpace(s[|s| - 1])
    ensures Strip(s) == s
  {
    assert LeadingSpaces(s) == 0;
    assert s[0..] == s;
  }

  // ---------------------------------------------------------------------------
  // Single-character `str.replace`
  // ---------------------------------------------------------------------------

  /** Python's `s.replace(c, '')`: every occurrence of `c` deleted, the rest kept in order. */
  function RemoveChar(s: string, c: char): (r: string)
    ensures c !in r
    ensures |r| <= |s|
    ensures forall x :: x in r ==> x in s
    decreases |s|
  {
    if |s| == 0 then ""
    else if s[0] == c then RemoveChar(s[1..], c)
    else [s[0]] + RemoveChar(s[1..], c)
  }

  /** Deleting `c` removes every occurrence of it and keeps every other character as often as it occurred. */
  lemma {:induction false} RemoveCharCounts(s: string, c: char)
    ensures multiset(RemoveChar(s, c)) == multiset(s)[c := 0]
    decreases |s|
  {
    if |s| > 0 {
      RemoveCharCounts(s[1..], c);
      assert s == [s[0]] + s[1..];
    }
  }

  /** Deleting a character distributes over concatenation. */
  lemma {:induction false} RemoveCharAppend(a: string, b: string, c: char)
    ensures RemoveChar(a + b, c) == RemoveChar(a, c) + RemoveChar(b, c)
    decreases |a|
  {
    if |a| > 0 {
      RemoveCharAppend(a[1..], b, c);
      assert (a + b)[1..] == a[1..] + b;
    } else {
      assert a + b == b;
    }
  }

  /** Deleting a character that does not occur changes nothing. */
  lemma {:induction false} RemoveCharAbsent(s: string, c: char)
    requires c !in s
    ensures RemoveChar(s, c) == s
    decreases |s|
  {
    if |s| > 0 {
      RemoveCharAbsent(s[1..], c);
      assert s == [s[0]] + s[1..];
    }
  }

  /** Python's `s.replace(a, b)` for single characters `a` and `b`. */
  function ReplaceChar(s: string, a: char, b: char): (r: string)
    ensures |r| == |s|
    ensures forall i :: 0 <= i < |s| ==> r[i] == (if s[i] == a then b else s[i])
    decreases |s|
  {
    if |s| == 0 then ""
    else [if s[0] == a then b else s[0]] + ReplaceChar(s[1..], a, b)
  }

  /** Replacing a character distributes over concatenation. */
  lemma ReplaceCharAppend(x: string, y: string, a: char, b: char)
    ensures ReplaceChar(x + y, a, b) == ReplaceChar(x, a, b) + ReplaceChar(y, a, b)
  {
  }

  /** Replacing a character that does not occur changes nothing. */
  lemma ReplaceCharAbsent(s: string, a: char, b: char)
    requires a !in s
    ensures ReplaceChar(s, a, b) == s
  {
  }

  // ---------------------------------------------------------------------------
  // `str.lower()`
  // ---------------------------------------------------------------------------

  /** Lower-case one character; only ASCII `A`-`Z` are folded. */
  function LowerChar(c: char): (d: char)
  {
    if 'A' <= c <= 'Z' then (c as int - 'A' as int + 'a' as int) as char else c
  }

  /** Python's `s.lower()`, restricted to ASCII case folding. */
  function Lower(s: string): (r: string)
    ensures |r| == |s|
    ensures forall i :: 0 <= i < |s| ==> r[i] == LowerChar(s[i])
    decreases |s|
  {
    if |s| == 0 then "" else [LowerChar(s[0])] + Lower(s[1..])
  }
}

=== FILE: wrappers.dfy ===
/** Optional values and fallible results, standing in for Python's `None` and raised errors. */
module Wrappers {

  /** A value that may be absent; `None` is Python's `None`. */
  datatype Option<+T> = None | Some(value: T)

  /** The outcome of an operation that either succeeds with a value or fails with an error. */
  datatype Result<+R, +E> = Success(value: R) | Failure(error: E)
}
